=== FILE: README.md ===
# Lotus BF workspace: a verified model of its front-end logic

This project models the decision logic of the Lotus BF brain-map search
workspace. The workspace is a React single-page application with three
resizable panes:

- a term list, with related terms for the selected term;
- a boolean query builder with autocomplete, above two paged result tables (studies and activation locations);
- a coordinate viewer.

The model covers the pure, sequential part of each component:

- **Resize engine**: turning a drag-start snapshot and a pointer position into new pane percentages; restoring saved sizes; appending a picked term to the shared query.
- **Query text**: the word under the cursor, its classification as operator, coordinate or term, the autocomplete suggestion list, the rewrite that accepts a suggestion, `append`, clear, and the suggestion panel's open/closed state.
- **Term list**: the search filter, the 500-entry cap, the tokens a term or operator click hands to the query, and the sorted, truncated related-terms list.
- **Studies and Locations tables**: page count, request window, the four navigation buttons, the header-click sort toggle, the total read from optional response fields, failure handling, page resets, when a request is issued, and the coordinate a location row hands to the viewer.

The modules follow the source files:

| module | models |
|---|---|
| `JsValues` | `Number(...)`, nullish coalescing `??` and the zero fallback of `Number(x) or 0` on the fields of a JSON response |
| `Strings` | `split(/\s+/)`, `join(' ')`, `trim`, ASCII `toLowerCase`/`toUpperCase`, `includes` |
| `Sequences` | order-preserving subsequences, `slice(0, n)`, and the `Array.prototype.sort` with a `(A - B) * dir` comparator |
| `Search` | the case-insensitive substring filter shared by autocomplete and the term list |
| `QueryText`, `QueryBuilder` | src/components/QueryBuilder.jsx |
| `App` | src/App.jsx |
| `Terms` | src/components/Terms.jsx |
| `Pager` | pagination and sorting shared by src/components/Studies.jsx and src/components/Locations.jsx |
| `Studies`, `Locations` | the two result tables |
| `Scenarios` | worked examples on concrete values |

Every component's state is an immutable datatype, and the network is a parameter: a completed request arrives as a `Fetched` or `Response` value.
The transitions take three shapes:

- `Terms`, `Studies` and `Locations` turn each user action or network completion (an `Event`) into the next state plus what the event hands to the outside (the token for the query, the request to issue, the coordinate for the viewer).
- `QueryBuilder.Step` turns an `Event` into the next builder state only; the query it hands to its parent is the state's `query` field.
- `App` has no event type: `Move` computes the pane sizes during a drag and `Restore` reads them back from storage.

Two things are supplied by the caller:

- Locale-dependent ordering (`localeCompare`) is a caller-supplied collation rank `string -> real`.
- The pane arithmetic uses `real`, so it is exact rational arithmetic.

Where the code and the documented intent differ, the model follows the code:

- **Divider 1 has no remainder step.** It recomputes the left pane from the drag-start pixels, and the right pane independently from its new pixel width. It does not set a `100 - others` remainder. Only divider 0 sets the right pane to `max(100 - left - middle, 0)`.
- **Restore checks only the length.** It accepts any parsed array of exactly three entries, even one whose entries do not sum to 100 (`App.RestoreAcceptsUnbalanced`).
- **`total_count: null` gives a total of 0.** The total is `Number(total ?? count ?? total_count)`. When all three are absent except a `null` `total_count`, this is `Number(null) = 0`, not the number of rows received.
- **A pane can become negative.** When the two panes beside a divider are together narrower than one minimum width, the second clamp pushes the pane before the divider below zero (`App.NarrowPairGoesNegative`). Only the right pane's percentage is floored at 0.
- **Locations does not re-fetch on a sort change.** Its sort order is sent to the server, but a sort change alone issues no request (see Findings).

## Model

| member | source | states |
|---|---|---|
| App.ShiftPair | src/App.jsx:47-51 | moving `dx` pixels across a divider, with both sequential clamps, keeps the pair's combined width; the pane after the divider ends at least 240 px wide; the pane before it does too whenever the pair is at least 480 px wide |
| App.NarrowPairGoesNegative | src/App.jsx:50-51 | two 100 px panes at rest come out as -40 px and 240 px: the second clamp takes from a pane already below the minimum |
| App.ShiftPairIsClamp | src/App.jsx:48-51 | the two clamps place the pane before the divider at `a + dx` confined to `[240, a + b - 240]`, the upper bound winning when the pair is narrower than 480 px |
| App.ShiftPairMonotone | src/App.jsx:46-51 | moving the pointer further right never makes the pane before the divider narrower |
| App.ShiftPairTracksPointer | src/App.jsx:46-51 | inside the feasible range the divider follows the pointer exactly |
| App.Move | src/App.jsx:38-66 | a move produces sizes exactly when the grid width is non-zero |
| App.MoveLeftMiddle | src/App.jsx:47-55 | divider 0 keeps left plus middle percentage; the middle pane is at least 240 px; the left pane is too when the pair could afford it; the right pane becomes `max(100 - left - middle, 0)`, its drag-start value when the start sizes summed to 100 |
| App.MoveFollowsPointer | src/App.jsx:38-64 | the pane before the dragged divider ends up `clientX - startX` pixels wider than at drag start, confined to at least 240 px and to leaving 240 px for the pane after the divider |
| App.MoveMiddleRight | src/App.jsx:56-64 | divider 1 leaves the left pane at its drag-start percentage, keeps middle plus right, and gives the right pane (and the middle pane when affordable) at least 240 px |
| App.MoveAtRest | src/App.jsx:40-46 | a move with zero displacement returns the drag-start sizes when both affected panes are at least the minimum wide and, for divider 0, the start sizes sum to 100 with a non-negative right pane, so moves are computed from the snapshot and do not accumulate |
| App.MoveKeepsBalanced | src/App.jsx:45-65 | from sizes summing to 100 with a non-negative right pane, every move of either divider yields such sizes again |
| App.DragsKeepBalanced | src/App.jsx:38-66 | any sequence of drags from balanced sizes leaves balanced sizes |
| App.DefaultLayoutStaysBalanced | src/App.jsx:19-66 | from the default `[28, 44, 28]` every sequence of drags keeps the percentages summing to 100 |
| App.Restore | src/App.jsx:23-31 | a parsed array of exactly three entries replaces the sizes; absence, a parse failure or any other value leaves them |
| App.RestorePersisted | src/App.jsx:23-36 | restoring what the persist effect saved gives back the saved sizes |
| App.MountSizes | src/App.jsx:19-31 | the mounted layout is the default unless a three-entry array was saved, and a saved three-entry array is the mounted layout |
| App.RestoreAcceptsUnbalanced | src/App.jsx:28 | the default layout sums to 100, yet a saved `[10, 10, 10]` is accepted as it is |
| App.PickTerm | src/App.jsx:13-15 | a picked term is the new query when the query is empty, else it is added after one space |
| Strings.SplitPieces | src/components/QueryBuilder.jsx:35 | the pieces of `split(/\s+/)` contain no white space; there is one piece exactly when the text has no white space, and it is then the text; the last piece is the word the text ends with |
| Strings.JoinSplit | src/components/QueryBuilder.jsx:70-72 | joining the split pieces with single spaces collapses every white-space run to one space and changes nothing else |
| Strings.CollapseIsSingleSpaced | src/components/QueryBuilder.jsx:70-72 | the collapsed text has only isolated single spaces |
| Strings.CollapseSingleSpaced | src/components/QueryBuilder.jsx:70-72 | single-spaced text survives the split-and-join unchanged |
| Strings.JoinReplaceLast | src/components/QueryBuilder.jsx:71-72 | replacing the last word before joining replaces exactly the joined text's final word |
| Strings.Trim | src/components/Terms.jsx:65 | trimming leaves the infix of the text that remains after a white-space prefix and a white-space suffix, starts and ends with a non-white-space character, is empty exactly when the text is all white space, and is the text itself when it has no surrounding white space |
| Strings.ContainsAt | src/components/Terms.jsx:67 | `includes` holds exactly when the needle occurs at some position of the text |
| Search.Matching | src/components/Terms.jsx:67 | filtering keeps, in order and with their multiplicity, exactly the entries whose lower-case form contains the needle |
| Search.MatchingEmptyNeedle | src/components/Terms.jsx:66 | filtering by the empty needle keeps the whole list |
| Search.MatchingAll | src/components/QueryBuilder.jsx:55-56 | when every entry matches, filtering keeps the whole list |
| Sequences.Take | src/components/Terms.jsx:120 | `slice(0, n)` is the prefix of length `min(n, length)` |
| Sequences.SortByKey | src/components/Studies.jsx:55-66 | the sorted rows are a permutation of the input in key order for the chosen direction |
| Sequences.Insert | src/components/Studies.jsx:58-64 | inserting into an ordered list adds exactly the element and keeps the order |
| Sequences.SortOrderedIsIdentity | src/components/Terms.jsx:209-213 | rows already in key order keep their order |
| Sequences.SubsequencePrefix | src/components/QueryBuilder.jsx:57 | a prefix of an order-preserving subsequence is again one |
| QueryText.CursorSplitsText | src/components/QueryBuilder.jsx:67-68 | the text before and after the cursor make up the whole input |
| QueryText.CurrentWord | src/components/QueryBuilder.jsx:33-38 | the current word is the white-space-free suffix the before-cursor text ends with, and is empty exactly when that text is empty or ends in white space |
| QueryText.OperatorsNeverTrigger | src/components/QueryBuilder.jsx:50-54 | a word under two characters, an operator in any case, or a word starting with `[` never opens suggestions |
| QueryText.Append | src/components/QueryBuilder.jsx:80-84 | the new query is the token when the text is empty, else the text, one space, and the token |
| QueryText.AppendAddsWords | src/components/QueryBuilder.jsx:80-84 | when the query is non-empty and does not end in white space, and the token does not start with white space, the pieces of `split(/\s+/)` of the new query are the query's pieces followed by the token's |
| QueryText.AppendWords | src/components/QueryBuilder.jsx:80-84 | for every query and token, the non-empty words of the new query are exactly the query's words followed by the token's words |
| Strings.WordsConcat | src/components/QueryBuilder.jsx:35 | cutting text just before white space (or at its end) splits its non-empty words into the words of the two parts |
| QueryText.AcceptSuggestion | src/components/QueryBuilder.jsx:65-73 | accepting a suggestion keeps the after-cursor text verbatim as the suffix |
| QueryText.AcceptSuggestionRewrites | src/components/QueryBuilder.jsx:65-73 | the accepted text is the collapsed before-cursor text with its last word replaced by the term, then the after-cursor text |
| QueryText.AcceptSuggestionSingleSpaced | src/components/QueryBuilder.jsx:65-73 | on single-spaced text only the current word changes |
| QueryBuilder.Suggest | src/components/QueryBuilder.jsx:55-57 | at most 8 suggestions, all containing the word regardless of case, in vocabulary order, a prefix of all matches, and all of them when there are at most 8 |
| QueryBuilder.SuggestNonEmpty | src/components/QueryBuilder.jsx:58-59 | the suggestion list is non-empty exactly when some vocabulary entry contains the word |
| QueryBuilder.MountValid | src/components/QueryBuilder.jsx:27-30 | on mount the input mirrors the query and the panel is closed |
| QueryBuilder.Step | src/components/QueryBuilder.jsx:12-114 | only a vocabulary load changes the vocabulary (to the fetched terms, or none); only typing changes the suggestions; only typing can open the panel; picking, clearing and an outside click close it; key presses, outside clicks and loads leave input and query alone, and every other event leaves input equal to query |
| QueryBuilder.StepPreservesValid | src/components/QueryBuilder.jsx:40-99 | after every event the input equals the query and an open panel lists 1 to 8 suggestions |
| QueryBuilder.TypedOpensPanel | src/components/QueryBuilder.jsx:40-63 | typing sets input and query to the text; the panel opens exactly when the word is at least 2 characters, not an operator, not a coordinate, and contained in some vocabulary entry; a word that qualifies replaces the suggestions with `Suggest` (the first 8 matches in vocabulary order) and any other word leaves them, so an open panel lists exactly `Suggest` |
| QueryBuilder.PickedReplacesWord | src/components/QueryBuilder.jsx:65-78 | for any input, accepting a suggestion closes the panel, sets input and query to the same text, and keeps the vocabulary and suggestions; that text is the before-cursor text with white-space runs collapsed and its last word replaced by the term, then the after-cursor text verbatim; on single-spaced text exactly the current word is replaced |
| QueryBuilder.ClearEmpties | src/components/QueryBuilder.jsx:86-90 | clearing empties input and query and closes the panel |
| QueryBuilder.KeysOnlyClose | src/components/QueryBuilder.jsx:92-99 | Enter and Escape close the panel without touching the text; other keys change nothing |
| Terms.Filtered | src/components/Terms.jsx:64-68 | the blank-search shortcut agrees with filtering by the trimmed, lower-cased search |
| Terms.BlankSearchListsAll | src/components/Terms.jsx:65-66 | a search of only white space lists every term unchanged |
| Terms.Displayed | src/components/Terms.jsx:120 | the listed terms are the first 500 filtered terms, or all of them when there are fewer, an ordered subsequence of the vocabulary, each matching the search |
| Terms.OpName | src/components/Terms.jsx:254-290 | the AND, OR and NOT buttons emit `AND`, `OR` and `NOT`, the first three operator words the query builder recognises |
| Terms.OpNameInjective | src/components/Terms.jsx:254-290 | the three buttons emit three different words |
| Terms.OperatorToken | src/components/Terms.jsx:77-79 | the emitted token is the operator name, one space, then the term |
| Terms.OperatorTokenWords | src/components/Terms.jsx:77-79 | for a one-word term the token splits into exactly the operator and the term, and its first word classifies as an operator |
| Terms.MissingCountsAsZero | src/components/Terms.jsx:212-213 | a missing co-occurrence count or Jaccard index sorts as 0 |
| Terms.RelatedShown | src/components/Terms.jsx:209-214 | the shown related terms are fetched entries in key order for the chosen direction, as many as the limit or the list allows, whichever is fewer, all of them when the limit allows, and every shown entry ranks at or ahead of every entry cut off |
| Terms.OrderedPrefix | src/components/Terms.jsx:214 | truncating an ordered list keeps it ordered |
| Terms.DisplayName | src/components/Terms.jsx:216 | a related row is named by its term, or by `Term <index+1>` without one, which is never empty |
| Terms.PositionalNamesDistinct | src/components/Terms.jsx:216 | two rows without a term at different positions get different names |
| Pager.NatToStringRoundTrip | src/components/Studies.jsx:32 | the status numeral in `HTTP ${res.status}` (and the `Term ${idx + 1}` numeral) is all decimal digits and reads back as the number |
| Terms.Step | src/components/Terms.jsx:43-79 | exactly term and operator clicks emit a token; a term click emits the term unchanged and selects it; an operator click emits the operator token and changes nothing; the limit stays positive |
| Terms.TermClickSelects | src/components/Terms.jsx:44-46 | a term click only selects the term and clears the related-terms error |
| Terms.RelatedFailureEmpties | src/components/Terms.jsx:56-58 | a failed related-terms request empties the list and reports the prefixed reason |
| Terms.ControlsBehave | src/components/Terms.jsx:173-184 | the direction toggle flips and is an involution; a limit that converts to 0 or NaN falls back to 10 |
| JsValues.ToNumber | src/components/Studies.jsx:36-37 | `Number` of a field is finite except for `undefined` and non-numeric values, and `null` converts to 0 |
| JsValues.FirstPresent | src/components/Studies.jsx:36 | the field found is non-nullish and every field before it is nullish, so it is the first present one, and there is none exactly when every field is nullish |
| JsValues.CoalesceFirstPresent | src/components/Studies.jsx:36 | `total ?? count ?? total_count` is the first present field, or `total_count` itself when none is |
| Pager.Ceil | src/components/Studies.jsx:67 | `Math.ceil` gives the least integer not below its argument |
| Pager.TotalPages | src/components/Studies.jsx:67 | the page count is at least 1, its pages hold the total, its last page is non-empty for a positive total, and it is 1 for totals up to one page |
| Pager.CeilScaled | src/components/Locations.jsx:55 | the rounded-up quotient brackets the total between the last two page boundaries |
| Pager.WindowsTileRows | src/components/Studies.jsx:28-29 | every row index below the total lies in the window of exactly one page, and that page is within the page count |
| Pager.NextWindowFollows | src/components/Locations.jsx:30-31 | consecutive pages request adjacent windows |
| Pager.Navigate | src/components/Studies.jsx:108-111 | navigation keeps a page in range; when enabled, first goes to 1, previous to the page before, next to the page after and last to the page count; a disabled button leaves the page as it is |
| Pager.NextPrevInverse | src/components/Locations.jsx:107-108 | next then previous, and previous then next, return to the page |
| Pager.ChangeSort | src/components/Studies.jsx:50-53 | a header click makes its column current; the current column flips direction, another starts ascending |
| Pager.ChangeSortTwice | src/components/Locations.jsx:58-61 | two clicks on the current column restore the sort; two clicks on a new column leave it descending |
| Pager.TotalFrom | src/components/Studies.jsx:36-37 | the total is the first present count when numeric, else the number of rows, with a lone `null` `total_count` giving 0 |
| Pager.Settle | src/components/Studies.jsx:31-42 | a successful answer yields its results (or none) as rows with the total read by `TotalFrom` from the body; a failed one yields the body's `error`, or `HTTP <status>` when the body has none; a thrown request yields its reason |
| Pager.MissingTotalCountsRows | src/components/Locations.jsx:40-41 | a successful answer without `total`, `count` or `total_count` reports the number of rows received as its total |
| Pager.Chosen | src/components/Studies.jsx:100 | a choice that converts to 0 or NaN gives the default; a non-zero choice gives exactly the chosen size |
| Studies.SortedRows | src/components/Studies.jsx:55-66 | the sorted rows are a permutation of the page in column order for the chosen direction |
| Studies.YearSortIsNumeric | src/components/Studies.jsx:62 | sorted by year the rows are in numeric year order with a missing year as 0, whatever the collation |
| Studies.Refetch | src/components/Studies.jsx:18-48 | a request for the new state is issued, clearing the error, exactly when the query is non-empty and `query`, `page` or `pageSize` changed |
| Studies.Mount | src/components/Studies.jsx:10-19 | mounting starts on page 1 of 20 sorted by year descending and fetches the first window only for a non-empty query |
| Studies.Step | src/components/Studies.jsx:16-111 | every issued request carries the new state's parameters and a non-empty query |
| Studies.StepKeepsValid | src/components/Studies.jsx:16-48 | page size stays positive, page stays at least 1, and with a query the last request always matches the state |
| Studies.QueryChangeResetsPage | src/components/Studies.jsx:16-19 | a new query returns to page 1 and fetches its first window, or nothing for an empty query |
| Studies.PageSizeResetsPage | src/components/Studies.jsx:100 | a page-size choice returns to page 1 with the chosen size or 20 |
| Studies.HeaderClickOnlyResorts | src/components/Studies.jsx:48-53 | a header click changes only the sort and issues no request |
| Studies.NextFetchesFollowingWindow | src/components/Studies.jsx:110 | next from a page below the last fetches the adjacent window |
| Studies.FailureShowsOnePage | src/components/Studies.jsx:38-42 | a failure leaves no rows, total 0, one page, and a message starting `Unable to fetch studies: ` |
| Locations.ChosenRadius | src/components/Locations.jsx:72 | the radius is the entered non-zero value, or 6 for 0 or NaN |
| Locations.Mount | src/components/Locations.jsx:11-22 | mounting starts on page 1 of 30 with radius 6 sorted by study id ascending and fetches only for a non-empty query |
| Locations.Apply | src/components/Locations.jsx:19-61 | no event but a query change alters the query, and the page size stays positive |
| Locations.Picked | src/components/Locations.jsx:141 | exactly a row click hands on a coordinate, and it is that row's `x`, `y`, `z` |
| Locations.StepAsWritten | src/components/Locations.jsx:21-52 | as written, a request is issued exactly when the query is non-empty and `query`, `r`, `page` or `pageSize` changed |
| Locations.SortChangeIssuesNoRequest | src/components/Locations.jsx:52 | as written, a sort change alone never issues a request nor changes the rows |
| Locations.SortClickLeavesRowsStale | src/components/Locations.jsx:29-33 | as written, after a header click the rows were fetched with a sort other than the one shown |
| Locations.Step | src/components/Locations.jsx:21-61 | with the sort among the dependencies a request is issued exactly when a request parameter changed and the query is non-empty, and it carries the new parameters |
| Locations.StepKeepsValid | src/components/Locations.jsx:21-52 | with the sort among the dependencies the last request always matches the state while there is a query |
| Locations.SortChangeRefetches | src/components/Locations.jsx:58-61 | with the sort among the dependencies a header click fetches the same page in the new order |
| Locations.StepAgreesOffSort | src/components/Locations.jsx:52 | on every event but a header click the effect as written and the corrected one react identically, so the lemmas about `Step` on those events hold for the code as written |
| Locations.RowClickPicksCoordinate | src/components/Locations.jsx:141 | a row click hands on exactly that row's coordinate and changes nothing, the query included |
| Locations.QueryChangeResetsPage | src/components/Locations.jsx:19-33 | a new query returns to page 1 and fetches its first window with the current radius and sort |
| Locations.PageSizeResetsPage | src/components/Locations.jsx:98 | a page-size choice returns to page 1 with the chosen size or 30 |
| Locations.FailureShowsOnePage | src/components/Locations.jsx:42-46 | a failure leaves no rows, total 0, one page, and the failure's own message |
| Scenarios.CurrentWordExamples | src/components/QueryBuilder.jsx:33-38 | the current word of `foo bar` is `bar` at the end and `foo` at position 3, and empty text has the empty word |
| Scenarios.AppendExamples | src/components/QueryBuilder.jsx:80-84 | appending `AND` gives `AND` to an empty query and `foo AND` to `foo` |
| Scenarios.PickingSession | src/components/QueryBuilder.jsx:65-78 | clicking the suggestion `emotion` while the input is `em` makes both the input and the query `emotion` and closes the panel, leaving the vocabulary and suggestions alone |
| Scenarios.PickFear | src/App.jsx:13-15 | a click on the term `fear` with the query `emotion AND` makes it `emotion AND fear` |
| Scenarios.CorruptLayoutFallsBack | src/App.jsx:23-31 | an unparsable or two-entry saved layout leaves `[28, 44, 28]` |

## Left out

- Network and asynchrony are left out: `fetch`, `AbortController`, the `alive` flags that drop stale responses, and loading flags. A completed request is an input value, and `Settled` is taken to answer the last request issued.
- React's effect scheduling is left out. On a query change the source runs the fetch effect once with the old page before the page reset re-runs it with page 1. The model applies the reset and the query together and issues only the page-1 request.
- JSX rendering, styling, skeletons and `toFixed` formatting are left out; they are presentation only.
- `localStorage` and `JSON.parse` are abstracted as a `Saved` value: nothing saved, unparsable, or a parsed value. Array entries are numbers; a saved array of three non-numbers is out of scope.
- Pointer listener registration and removal and `getBoundingClientRect` are DOM I/O. The grid width, the pointer-down position and the pointer position are inputs of a move.
- The click-outside handler's DOM containment test is left out. The event `PointerDownOutside` stands for a press outside both the panel and the input.
- `localeCompare` is locale-dependent. It is modelled as a caller-supplied rank `string -> real`, so ties in rank stand for strings that compare equal.
- Floating-point rounding is left out: sizes, totals, Jaccard values and the radius are exact reals. A grid of zero width, where the source divides by zero, gives `None`.
- Studies.ColumnRank: a `year` that converts to NaN sorts as 0 here. In the source, NaN makes the comparator return NaN, which `sort` treats as equal to everything and which is not a consistent order.
- QueryText.AppendAddsWords: the piece-by-piece form is stated only for a non-empty query that does not end in white space and a token that does not start with white space, because `split(/\s+/)` yields empty pieces at such a seam. `QueryText.AppendWords` states the words property for every query and token, counting non-empty words.
- Unicode case mapping is modelled as ASCII case folding, and strings are sequences of code points rather than UTF-16 units.
- `NiiViewer` and `useUrlQueryState` are not part of this model. The query is a plain string held by the workspace.
- The term list and related-terms requests keep only the error message's text. A body that fails to parse in those two requests arrives as `Unreachable` with the parse error's message.
- Sequences.SortByKey: its contract states an ordered permutation but not stability, the relative order of entries with equal keys. The definition is an insertion sort that keeps equal keys in input order, as `Array.prototype.sort` does, so `Terms.RelatedShown` keeps the same entries on a tie at the limit as the source does; that tie-breaking is not stated as a property.
- QueryText.AcceptSuggestion: its own contract states only that the after-cursor text is kept. The full rewrite is stated by `QueryText.AcceptSuggestionRewrites`.

## Findings

| source | as written | input that shows it | evidently intended | confidence | as-written member | corrected member |
|---|---|---|---|---|---|---|
| src/components/Locations.jsx:52 | the fetch effect depends on `[query, r, page, pageSize]` although the request it sends carries `sort` and `dir` (lines 32-33) | mount with query `emotion`, then click the X header: the header shows X ascending, no request is issued, and the rows stay those fetched by study id ascending | a header click re-fetches the current page in the new order, as every other request parameter does | medium; not executed | Locations.SortClickLeavesRowsStale | Locations.StepKeepsValid |


=== FILE: app.dfy ===
/**
 * The workspace shell (src/App.jsx): the three-pane resize engine, the
 * restore of saved pane sizes, and the term pick that extends the query.
 * Sizes are percentages of the grid width; the model computes over `real`,
 * so the arithmetic is exact.
 */
module App {
  import opened JsValues
  import QueryText

  /** No pane is dragged narrower than this many pixels. */
  const MinPx: real := 240.0

  /** Pane widths, as percentages of the grid (or as pixels, for `PixelWidths`). */
  datatype Sizes = Sizes(left: real, middle: real, right: real)

  const DefaultSizes: Sizes := Sizes(28.0, 44.0, 28.0)

  function Sum(s: Sizes): real {
    s.left + s.middle + s.right
  }

  // ---------------------------------------------------------------------------
  // Dragging a divider

  /** Divider 0 sits between the left and middle panes, divider 1 between middle and right. */
  datatype Divider = LeftMiddle | MiddleRight

  /** What `startDrag` captures when the pointer goes down. */
  datatype Drag = Drag(divider: Divider, startX: real, width: real, start: Sizes)

  /** `curPx`: the drag-start percentages as pixels of the drag-start width. */
  function PixelWidths(d: Drag): Sizes {
    Sizes(d.start.left / 100.0 * d.width,
          d.start.middle / 100.0 * d.width,
          d.start.right / 100.0 * d.width)
  }

  /**
   * The two sequential clamps shared by both dividers: `dx` pixels move from
   * pane `b` to pane `a`; then `a` is raised to the minimum at `b`'s expense,
   * and then `b` is raised to the minimum at `a`'s expense.
   */
  function ShiftPair(a: real, b: real, dx: real): (r: (real, real))
    ensures r.0 + r.1 == a + b
    ensures r.1 >= MinPx
    ensures a + b >= 2.0 * MinPx ==> r.0 >= MinPx
  {
    var a1 := a + dx;
    var b1 := b - dx;
    var (a2, b2) := if a1 < MinPx then (MinPx, b1 - (MinPx - a1)) else (a1, b1);
    if b2 < MinPx then (a2 - (MinPx - b2), MinPx) else (a2, b2)
  }

  /** Clamps `x` to `[lo, hi]`, the upper bound winning when the interval is empty. */
  function ClampBelowAbove(x: real, lo: real, hi: real): real {
    var y := if x < lo then lo else x;
    if y > hi then hi else y
  }

  /**
   * The clamps put `a` at `a + dx` confined to `[MinPx, a + b - MinPx]`;
   * when the pair is narrower than two minimums, `b` keeps its minimum.
   */
  lemma ShiftPairIsClamp(a: real, b: real, dx: real)
    ensures ShiftPair(a, b, dx).0 == ClampBelowAbove(a + dx, MinPx, a + b - MinPx)
  {
  }

  /** When the pair is narrower than one minimum, the first pane goes negative. */
  lemma NarrowPairGoesNegative()
    ensures ShiftPair(100.0, 100.0, 0.0) == (-40.0, 240.0)
  {
  }

  /** The pane on the left of the divider never shrinks while the pointer moves right. */
  lemma ShiftPairMonotone(a: real, b: real, dx1: real, dx2: real)
    requires dx1 <= dx2
    ensures ShiftPair(a, b, dx1).0 <= ShiftPair(a, b, dx2).0
  {
    ShiftPairIsClamp(a, b, dx1);
    ShiftPairIsClamp(a, b, dx2);
  }

  /** Inside the feasible range the divider follows the pointer exactly. */
  lemma ShiftPairTracksPointer(a: real, b: real, dx: real)
    requires MinPx <= a + dx <= a + b - MinPx
    ensures ShiftPair(a, b, dx) == (a + dx, b - dx)
  {
  }

  /**
   * The sizes one `mousemove` commits, as a function of the drag-start
   * snapshot and the pointer's `clientX` only. `None` stands for a grid of
   * zero width, where the source divides by zero and stores non-finite sizes.
   */
  function Move(d: Drag, clientX: real): (r: Option<Sizes>)
    ensures r.None? <==> d.width == 0.0
  {
    if d.width == 0.0 then None
    else
      var px := PixelWidths(d);
      var dx := clientX - d.startX;
      match d.divider
      case LeftMiddle =>
        var (newLeft, newMid) := ShiftPair(px.left, px.middle, dx);
        var s0 := newLeft / d.width * 100.0;
        var s1 := newMid / d.width * 100.0;
        var s2 := 100.0 - s0 - s1;
        Some(Sizes(s0, s1, if s2 > 0.0 then s2 else 0.0))
      case MiddleRight =>
        var (newMid, newRight) := ShiftPair(px.middle, px.right, dx);
        var s1 := newMid / d.width * 100.0;
        var s2 := newRight / d.width * 100.0;
        var s0 := px.left / d.width * 100.0;
        Some(Sizes(s0, s1, if s2 > 0.0 then s2 else 0.0))
  }

  /** `pct` percent of `width` pixels. */
  function Px(pct: real, width: real): real {
    pct / 100.0 * width
  }

  /**
   * The divider follows the pointer: the pane before it ends up `clientX -
   * startX` pixels wider than at drag start, confined to the minimum on
   * either side of the divider.
   */
  lemma MoveFollowsPointer(d: Drag, clientX: real)
    requires d.width > 0.0
    ensures var r := Move(d, clientX).value;
            var px := PixelWidths(d);
            var dx := clientX - d.startX;
            match d.divider
            case LeftMiddle =>
              Px(r.left, d.width) == ClampBelowAbove(px.left + dx, MinPx, px.left + px.middle - MinPx)
            case MiddleRight =>
              Px(r.middle, d.width) == ClampBelowAbove(px.middle + dx, MinPx, px.middle + px.right - MinPx)
  {
    var px := PixelWidths(d);
    var dx := clientX - d.startX;
    match d.divider
    case LeftMiddle =>
      var pair := ShiftPair(px.left, px.middle, dx);
      ShiftPairIsClamp(px.left, px.middle, dx);
      PercentOfPixels(pair.0, d.width);
    case MiddleRight =>
      var pair := ShiftPair(px.middle, px.right, dx);
      ShiftPairIsClamp(px.middle, px.right, dx);
      PercentOfPixels(pair.0, d.width);
  }

  lemma PixelsOfPercent(pct: real, width: real)
    requires width > 0.0
    ensures Px(pct, width) / width * 100.0 == pct
  {
  }

  lemma PercentOfPixels(pixels: real, width: real)
    requires width > 0.0
    ensures Px(pixels / width * 100.0, width) == pixels
  {
  }

  /**
   * Divider 0 moves width between the left and middle panes only: their
   * combined percentage is kept, the middle pane is at least the minimum, the
   * left pane is too when the two together can afford it, and the right pane
   * becomes `max(100 - left - middle, 0)`, its drag-start size when the
   * start sizes summed to 100 with a non-negative right pane.
   */
  lemma MoveLeftMiddle(d: Drag, clientX: real)
    requires d.divider == LeftMiddle && d.width > 0.0
    ensures var r := Move(d, clientX).value;
            var px := PixelWidths(d);
            && r.left + r.middle == d.start.left + d.start.middle
            && Px(r.middle, d.width) >= MinPx
            && (px.left + px.middle >= 2.0 * MinPx ==> Px(r.left, d.width) >= MinPx)
            && r.right == (if 100.0 - d.start.left - d.start.middle > 0.0
                           then 100.0 - d.start.left - d.start.middle else 0.0)
            && (Sum(d.start) == 100.0 && d.start.right >= 0.0 ==> r.right == d.start.right)
  {
    var px := PixelWidths(d);
    var pair := ShiftPair(px.left, px.middle, clientX - d.startX);
    PercentOfPixels(pair.0, d.width);
    PercentOfPixels(pair.1, d.width);
    var r := Move(d, clientX).value;
    assert r.left + r.middle == (pair.0 + pair.1) / d.width * 100.0;
  }

  /**
   * Divider 1 leaves the left pane at its drag-start size, keeps the
   * combined middle and right percentage, gives the right pane at least the
   * minimum, and the middle pane too when the two together can afford it.
   */
  lemma MoveMiddleRight(d: Drag, clientX: real)
    requires d.divider == MiddleRight && d.width > 0.0
    ensures var r := Move(d, clientX).value;
            var px := PixelWidths(d);
            && r.left == d.start.left
            && r.middle + r.right == d.start.middle + d.start.right
            && Px(r.right, d.width) >= MinPx
            && (px.middle + px.right >= 2.0 * MinPx ==> Px(r.middle, d.width) >= MinPx)
  {
    var px := PixelWidths(d);
    var pair := ShiftPair(px.middle, px.right, clientX - d.startX);
    PercentOfPixels(pair.0, d.width);
    PercentOfPixels(pair.1, d.width);
    var r := Move(d, clientX).value;
    assert r.middle + r.right == (pair.0 + pair.1) / d.width * 100.0;
  }

  /**
   * A move that does not displace the pointer returns the drag-start sizes
   * when both panes beside the divider are at least the minimum wide (and,
   * for divider 0, the start sizes sum to 100 with a non-negative right pane).
   */
  lemma MoveAtRest(d: Drag)
    requires d.width > 0.0
    requires var px := PixelWidths(d);
             match d.divider
             case LeftMiddle =>
               px.left >= MinPx && px.middle >= MinPx
               && Sum(d.start) == 100.0 && d.start.right >= 0.0
             case MiddleRight =>
               px.middle >= MinPx && px.right >= MinPx && d.start.right >= 0.0
    ensures Move(d, d.startX) == Some(d.start)
  {
    var px := PixelWidths(d);
    PixelsOfPercent(d.start.left, d.width);
    PixelsOfPercent(d.start.middle, d.width);
    PixelsOfPercent(d.start.right, d.width);
    match d.divider
    case LeftMiddle => ShiftPairTracksPointer(px.left, px.middle, 0.0);
    case MiddleRight =>
      ShiftPairTracksPointer(px.middle, px.right, 0.0);
      assert px.right / d.width * 100.0 == d.start.right;
      assert px.left / d.width * 100.0 == d.start.left;
      assert px.middle / d.width * 100.0 == d.start.middle;
  }

  /** The layout invariant the default has: percentages sum to 100, right pane non-negative. */
  predicate Balanced(s: Sizes) {
    Sum(s) == 100.0 && s.right >= 0.0
  }

  /** Every move of either divider, from balanced drag-start sizes, commits balanced sizes. */
  lemma MoveKeepsBalanced(d: Drag, clientX: real)
    requires d.width > 0.0 && Balanced(d.start)
    ensures Balanced(Move(d, clientX).value)
  {
    match d.divider
    case LeftMiddle => MoveLeftMiddle(d, clientX);
    case MiddleRight => MoveMiddleRight(d, clientX);
  }

  // ---------------------------------------------------------------------------
  // Saving and restoring the layout

  /** A JSON value as the restore code inspects it. */
  datatype Json = JArray(items: seq<real>) | JOther

  /** What `localStorage.getItem('ui.sizes')` yields, after `JSON.parse`. */
  datatype Saved =
    | NothingSaved          // null or the empty string
    | Unparsable            // JSON.parse throws
    | Parsed(value: Json)

  /** `JSON.stringify(sizes)`, read back. */
  function Persist(s: Sizes): Saved {
    Parsed(JArray([s.left, s.middle, s.right]))
  }

  /**
   * The mount-time restore: a parsed array of exactly three entries replaces
   * the sizes; anything else, including a parse failure, keeps them.
   */
  function Restore(saved: Saved, current: Sizes): (r: Sizes)
    ensures (saved.Parsed? && saved.value.JArray? && |saved.value.items| == 3) ==>
            r == Sizes(saved.value.items[0], saved.value.items[1], saved.value.items[2])
    ensures !(saved.Parsed? && saved.value.JArray? && |saved.value.items| == 3) ==> r == current
  {
    match saved
    case Parsed(JArray(items)) =>
      if |items| == 3 then Sizes(items[0], items[1], items[2]) else current
    case _ => current
  }

  /** Restoring what was persisted gives back the persisted sizes. */
  lemma RestorePersisted(s: Sizes, current: Sizes)
    ensures Restore(Persist(s), current) == s
  {
  }

  /** The layout at mount: the default, possibly replaced by the saved sizes. */
  function MountSizes(saved: Saved): (r: Sizes)
    ensures r == DefaultSizes || (saved.Parsed? && saved.value.JArray? && |saved.value.items| == 3)
    ensures (saved.Parsed? && saved.value.JArray? && |saved.value.items| == 3) ==>
            r == Sizes(saved.value.items[0], saved.value.items[1], saved.value.items[2])
  {
    Restore(saved, DefaultSizes)
  }

  /**
   * Restore checks only the length: a saved array whose entries do not sum
   * to 100 is taken as it is.
   */
  lemma RestoreAcceptsUnbalanced()
    ensures Balanced(DefaultSizes)
    ensures !Balanced(MountSizes(Parsed(JArray([10.0, 10.0, 10.0]))))
  {
  }

  /** From the default layout, any sequence of drags keeps the layout balanced. */
  lemma DefaultLayoutStaysBalanced(moves: seq<(Divider, real, real, real)>)
    ensures Balanced(ApplyMoves(DefaultSizes, moves))
  {
    DragsKeepBalanced(DefaultSizes, moves);
  }

  /** Starting from the default, any sequence of moves keeps the layout balanced. */
  lemma {:induction false} DragsKeepBalanced(start: Sizes, moves: seq<(Divider, real, real, real)>)
    requires Balanced(start)
    ensures Balanced(ApplyMoves(start, moves))
    decreases |moves|
  {
    if |moves| > 0 {
      var (divider, startX, width, clientX) := moves[0];
      var next := if width > 0.0 then Move(Drag(divider, startX, width, start), clientX).value else start;
      if width > 0.0 {
        MoveKeepsBalanced(Drag(divider, startX, width, start), clientX);
      }
      DragsKeepBalanced(next, moves[1..]);
    }
  }

  /**
   * Replays moves, each a fresh drag from the current sizes: divider,
   * pointer-down position, grid width and pointer position. A move over a
   * grid of zero or negative width is skipped: at zero the sizes would not
   * be finite, and a measured width is never negative.
   */
  function ApplyMoves(s: Sizes, moves: seq<(Divider, real, real, real)>): Sizes
    decreases |moves|
  {
    if |moves| == 0 then s
    else
      var (divider, startX, width, clientX) := moves[0];
      var next := if width > 0.0 then Move(Drag(divider, startX, width, s), clientX).value else s;
      ApplyMoves(next, moves[1..])
  }

  // ---------------------------------------------------------------------------
  // Picking a term

  /** `handlePickTerm`: the picked text is appended to the query after one space. */
  function PickTerm(query: string, picked: string): (r: string)
    ensures query == "" ==> r == picked
    ensures query != "" ==> r == query + " " + picked
  {
    QueryText.Append(query, picked)
  }
}

=== FILE: js_values.dfy ===
/**
 * The handful of JavaScript value rules the components lean on when they read
 * a backend response: optional values, `Number(...)` conversion, the nullish
 * coalescing operator `??` and the `|| 0` fallback.
 */
module JsValues {

  datatype Option<+T> = None | Some(value: T) {
    function GetOr(default: T): T {
      match this
      case Some(v) => v
      case None => default
    }
  }

  /**
   * A field of a decoded JSON body, as far as `Number(...)` can tell:
   * `undefined` (the key is absent), `null`, a value that converts to the
   * finite number `v`, or a value that converts to `NaN`.
   */
  datatype Field = Undefined | Null | Num(v: real) | NotANumber {
    predicate IsNullish() {
      Undefined? || Null?
    }
  }

  /** `Number(f)` when it is finite, `None` when it is `NaN`. */
  function ToNumber(f: Field): (r: Option<real>)
    ensures r.None? <==> (f.Undefined? || f.NotANumber?)
    ensures f.Null? ==> r == Some(0.0)
    ensures f.Num? ==> r == Some(f.v)
  {
    match f
    case Undefined => None
    case Null => Some(0.0)
    case Num(v) => Some(v)
    case NotANumber => None
  }

  /** `Number(f) || 0`: `NaN` and every falsy value become zero. */
  function NumberOrZero(f: Field): real {
    match ToNumber(f)
    case Some(v) => v
    case None => 0.0
  }

  /** `a ?? b ?? c`: the first operand that is neither null nor undefined, else the last. */
  function Coalesce(a: Field, b: Field, c: Field): Field {
    if !a.IsNullish() then a else if !b.IsNullish() then b else c
  }

  /** `fs[i]` is present and every field before it is null or undefined. */
  predicate FirstPresentAt(fs: seq<Field>, i: int) {
    && 0 <= i < |fs|
    && !fs[i].IsNullish()
    && forall j :: 0 <= j < i ==> fs[j].IsNullish()
  }

  /** The first field of `fs` that is neither null nor undefined, if any. */
  function FirstPresent(fs: seq<Field>): (r: Option<Field>)
    ensures r.Some? ==> !r.value.IsNullish() && r.value in fs
    ensures r.Some? ==> exists i :: FirstPresentAt(fs, i) && fs[i] == r.value
    ensures r.None? <==> forall i :: 0 <= i < |fs| ==> fs[i].IsNullish()
  {
    if |fs| == 0 then None
    else if !fs[0].IsNullish() then
      assert FirstPresentAt(fs, 0);
      Some(fs[0])
    else
      var r := FirstPresent(fs[1..]);
      FirstPresentShift(fs, r);
      r
  }

  /** A first present field of the tail is the first present field of a list with a nullish head. */
  lemma FirstPresentShift(fs: seq<Field>, r: Option<Field>)
    requires |fs| > 0 && fs[0].IsNullish()
    requires r.Some? ==> exists i :: FirstPresentAt(fs[1..], i) && fs[1..][i] == r.value
    ensures r.Some? ==> exists i :: FirstPresentAt(fs, i) && fs[i] == r.value
  {
    if r.Some? {
      var i :| FirstPresentAt(fs[1..], i) && fs[1..][i] == r.value;
      forall j | 0 <= j < i + 1 ensures fs[j].IsNullish() {
        if j > 0 { assert fs[j] == fs[1..][j - 1]; }
      }
      assert FirstPresentAt(fs, i + 1);
    }
  }

  /** For three operands, `a ?? b ?? c` is the first present one, or `c` when none is. */
  lemma CoalesceFirstPresent(a: Field, b: Field, c: Field)
    ensures FirstPresent([a, b, c]).Some? ==> Coalesce(a, b, c) == FirstPresent([a, b, c]).value
    ensures FirstPresent([a, b, c]).None? ==> Coalesce(a, b, c) == c && c.IsNullish()
  {
    assert [a, b, c][1..] == [b, c];
    assert [b, c][1..] == [c];
    assert [c][1..] == [];
    if FirstPresent([a, b, c]).None? {
      assert [a, b, c][0] == a && [a, b, c][1] == b && [a, b, c][2] == c;
    }
  }
}

=== FILE: locations.dfy ===
/**
 * The locations table (src/components/Locations.jsx): one server-side page
 * of activation coordinates for the current query, sorted by the server,
 * with the page controls, the search radius, and the row click that moves
 * the viewer to a coordinate.
 */
module Locations {
  import opened JsValues
  import opened Sequences
  import opened Pager

  const DefaultPageSize: nat := 30

  /** The search radius in millimetres on mount and after an input that converts to 0 or NaN. */
  const DefaultRadius: real := 6.0

  /** One result row; coordinates are passed on as received. */
  datatype Location = Location(studyId: string, x: Field, y: Field, z: Field)

  datatype Column = StudyId | X | Y | Z

  /** The payload of `onPickLocation`. */
  datatype Coord = Coord(x: Field, y: Field, z: Field)

  /** The radius input: `Number(value) || 6`. */
  function ChosenRadius(choice: Option<real>): (r: real)
    ensures r != 0.0
    ensures r == DefaultRadius <==> choice == None || choice == Some(0.0) || choice == Some(DefaultRadius)
    ensures choice.Some? && choice.value != 0.0 ==> r == choice.value
  {
    match choice
    case Some(v) => if v != 0.0 then v else DefaultRadius
    case None => DefaultRadius
  }

  // ---------------------------------------------------------------------------
  // Table state

  /** The query string and the `r`, `limit`, `offset`, `sort` and `dir` parameters of a page request. */
  datatype Request = Request(query: string, radius: real, window: Window, sort: SortState<Column>)

  datatype Table = Table(
    query: string,
    radius: real,
    page: int,
    pageSize: nat,
    sort: SortState<Column>,
    rows: seq<Location>,
    total: real,
    err: string,
    requested: Option<Request>)   // the last request issued

  function RequestFor(t: Table): Request {
    Request(t.query, t.radius, PageWindow(t.page, t.pageSize), t.sort)
  }

  /** The table on mount, with the request the effect issues for a non-empty query. */
  function Mount(query: string): (r: (Table, Option<Request>))
    ensures r.0.page == 1 && r.0.pageSize == DefaultPageSize && r.0.radius == DefaultRadius
    ensures r.0.sort == SortState(StudyId, Asc)
    ensures r.1.Some? <==> query != ""
    ensures r.1.Some? ==> r.1 == Some(Request(query, DefaultRadius, Window(DefaultPageSize, 0), SortState(StudyId, Asc)))
  {
    var t := Table(query, DefaultRadius, 1, DefaultPageSize, SortState(StudyId, Asc), [], 0.0, "", None);
    if query != "" then (t.(requested := Some(RequestFor(t))), Some(RequestFor(t))) else (t, None)
  }

  datatype Event =
    | QueryChanged(q: string)
    | RadiusChosen(value: Option<real>)     // the input through `Number`; None for NaN
    | PageSizeChosen(choice: Option<nat>)   // the option's value through `Number`; None for NaN
    | Navigated(nav: Nav)
    | HeaderClicked(column: Column)
    | Settled(response: Response<Location>) // the answer to the last request
    | RowClicked(row: Location)

  /** What an event leaves: the table, the request it issues, and the coordinate it hands on. */
  datatype Reaction = Reaction(table: Table, request: Option<Request>, picked: Option<Coord>)

  /** The page count the navigation buttons see. */
  function PageCount(t: Table): int
    requires t.pageSize > 0
  {
    TotalPages(t.total, t.pageSize)
  }

  /** The state an event sets before any fetch effect runs. */
  function Apply(t: Table, e: Event): (r: Table)
    requires t.pageSize > 0
    ensures r.pageSize > 0
    ensures !e.QueryChanged? ==> r.query == t.query
  {
    match e
    case QueryChanged(q) => if q == t.query then t else t.(query := q, page := 1)
    case RadiusChosen(value) => t.(radius := ChosenRadius(value))
    case PageSizeChosen(choice) => t.(pageSize := Chosen(choice, DefaultPageSize), page := 1)
    case Navigated(nav) => t.(page := Navigate(t.page, PageCount(t), nav))
    case HeaderClicked(column) => t.(sort := ChangeSort(t.sort, column))
    case Settled(response) =>
      (match Settle(response)
       case Rows(rows, total) => t.(rows := rows, total := total)
       case Failure(message) => t.(rows := [], total := 0.0, err := message))
    case RowClicked(_) => t
  }

  /** `onPickLocation?.({ x: r.x, y: r.y, z: r.z })` for a row click. */
  function Picked(e: Event): (r: Option<Coord>)
    ensures r.Some? <==> e.RowClicked?
    ensures e.RowClicked? ==> r.value.x == e.row.x && r.value.y == e.row.y && r.value.z == e.row.z
  {
    if e.RowClicked? then Some(Coord(e.row.x, e.row.y, e.row.z)) else None
  }

  // ---------------------------------------------------------------------------
  // The fetch effect as written: dependencies [query, r, page, pageSize]

  function DepsAsWritten(t: Table): (string, real, int, nat) {
    (t.query, t.radius, t.page, t.pageSize)
  }

  /** The table's reaction with the effect re-running only when `query`, `r`, `page` or `pageSize` changed. */
  function StepAsWritten(t: Table, e: Event): (r: Reaction)
    requires t.pageSize > 0
    ensures r.request.Some? <==> r.table.query != "" && DepsAsWritten(t) != DepsAsWritten(Apply(t, e))
    ensures r.request.Some? ==> r.request == Some(RequestFor(r.table))
    ensures r.picked == Picked(e)
  {
    var after := Apply(t, e);
    if after.query != "" && DepsAsWritten(t) != DepsAsWritten(after) then
      var req := RequestFor(after);
      Reaction(after.(err := "", requested := Some(req)), Some(req), Picked(e))
    else
      Reaction(after, None, Picked(e))
  }

  /** As written, a header click alone issues no request, whatever the state. */
  lemma SortChangeIssuesNoRequest(t: Table, column: Column)
    requires t.pageSize > 0
    ensures StepAsWritten(t, HeaderClicked(column)).request.None?
    ensures StepAsWritten(t, HeaderClicked(column)).table.rows == t.rows
  {
  }

  /**
   * As written, the table can show rows fetched with a sort other than the
   * one its header shows: after mounting with a query and clicking the X
   * column, the last request still carries `study_id` ascending while the
   * header shows X ascending, and nothing re-fetches.
   */
  lemma SortClickLeavesRowsStale()
    ensures var t := Mount("emotion").0;
            var r := StepAsWritten(t, HeaderClicked(X));
            && r.request.None?
            && r.table.sort == SortState(X, Asc)
            && r.table.requested == Some(Request("emotion", DefaultRadius, Window(DefaultPageSize, 0), SortState(StudyId, Asc)))
            && r.table.requested != Some(RequestFor(r.table))
  {
  }

  // ---------------------------------------------------------------------------
  // The fetch effect with the sort in its dependencies

  /** Every request parameter, the sort key and direction included. */
  function Deps(t: Table): (string, real, int, nat, SortState<Column>) {
    (t.query, t.radius, t.page, t.pageSize, t.sort)
  }

  /**
   * The table's reaction to an event: the effect issues the request for the
   * new state, clearing the error, exactly when a request parameter changed
   * and the query is not empty; a row click hands on its coordinate.
   */
  function Step(t: Table, e: Event): (r: Reaction)
    requires t.pageSize > 0
    ensures r.request.Some? <==> r.table.query != "" && Deps(t) != Deps(Apply(t, e))
    ensures r.request.Some? ==> r.request == Some(RequestFor(r.table)) && r.table.err == ""
    ensures r.request.None? ==> r.table == Apply(t, e)
    ensures r.picked == Picked(e)
    ensures r.table.pageSize > 0
  {
    var after := Apply(t, e);
    if after.query != "" && Deps(t) != Deps(after) then
      var req := RequestFor(after);
      Reaction(after.(err := "", requested := Some(req)), Some(req), Picked(e))
    else
      Reaction(after, None, Picked(e))
  }

  /**
   * The reachable tables: a positive page size, a page of at least 1, and,
   * while the query is not empty, a last request that matches the state.
   */
  predicate Valid(t: Table) {
    && t.pageSize > 0
    && t.page >= 1
    && (t.query != "" ==> t.requested == Some(RequestFor(t)))
  }

  lemma MountValid(query: string)
    ensures Valid(Mount(query).0)
  {
  }

  /** With the sort among the dependencies every event keeps the table valid. */
  lemma StepKeepsValid(t: Table, e: Event)
    requires Valid(t)
    ensures Valid(Step(t, e).table)
  {
    if e.Navigated? {
      assert PageCount(t) >= 1;
    }
  }

  /** A header click now asks for the same page in the new order when there is a query. */
  lemma SortChangeRefetches(t: Table, column: Column)
    requires Valid(t) && t.query != ""
    ensures var r := Step(t, HeaderClicked(column));
            && r.request == Some(Request(t.query, t.radius, PageWindow(t.page, t.pageSize), ChangeSort(t.sort, column)))
            && r.table.page == t.page
  {
    assert ChangeSort(t.sort, column) != t.sort;
  }

  /**
   * Apart from a header click, the code as written and the corrected effect
   * react alike, so the lemmas below about `Step` on other events hold for
   * `StepAsWritten` too.
   */
  lemma StepAgreesOffSort(t: Table, e: Event)
    requires t.pageSize > 0 && !e.HeaderClicked?
    ensures StepAsWritten(t, e) == Step(t, e)
  {
  }

  /** A row click hands on exactly that row's coordinate and changes nothing, the query included. */
  lemma RowClickPicksCoordinate(t: Table, row: Location)
    requires t.pageSize > 0
    ensures var r := Step(t, RowClicked(row));
            && r.picked == Some(Coord(row.x, row.y, row.z))
            && r.table == t && r.request.None?
  {
  }

  /**
   * A new query returns to page 1 and, when it is not empty, asks for the
   * first window with the current radius, page size and sort; an empty query
   * asks for nothing.
   */
  lemma QueryChangeResetsPage(t: Table, q: string)
    requires t.pageSize > 0 && q != t.query
    ensures var r := Step(t, QueryChanged(q));
            && r.table.page == 1 && r.table.query == q
            && (q != "" ==> r.request == Some(Request(q, t.radius, Window(t.pageSize, 0), t.sort)))
            && (q == "" ==> r.request.None?)
  {
  }

  /** A page-size choice returns to page 1 with the chosen size, or 30 when it converts to 0 or NaN. */
  lemma PageSizeResetsPage(t: Table, choice: Option<nat>)
    requires t.pageSize > 0
    ensures var t' := Step(t, PageSizeChosen(choice)).table;
            && t'.page == 1
            && (choice == None || choice == Some(0) ==> t'.pageSize == DefaultPageSize)
            && (choice.Some? && choice.value > 0 ==> t'.pageSize == choice.value)
  {
  }

  /** A failed request leaves no rows, a zero total, one page, and the failure's own message. */
  lemma FailureShowsOnePage(t: Table, response: Response<Location>)
    requires t.pageSize > 0 && Settle(response).Failure?
    ensures var t' := Step(t, Settled(response)).table;
            && t'.rows == [] && t'.total == 0.0 && PageCount(t') == 1
            && t'.err == Settle(response).message
  {
  }
}

=== FILE: pager.dfy ===
/**
 * Server-side pagination and column sorting as the Studies and Locations
 * tables both implement them (src/components/Studies.jsx,
 * src/components/Locations.jsx): page count, request window, the four
 * navigation buttons, the header click that changes the sort, the total
 * taken from a response, and the response itself.
 */
module Pager {
  import opened JsValues
  import opened Sequences

  // ---------------------------------------------------------------------------
  // Page count and request window

  /** `Math.ceil(x)`. */
  function Ceil(x: real): (n: int)
    ensures x <= n as real < x + 1.0
  {
    var f := x.Floor;
    if f as real == x then f else f + 1
  }

  /**
   * `Math.max(1, Math.ceil(Math.max(0, total) / pageSize))`: the fewest
   * pages, and at least one, of `pageSize` rows that hold `total` rows.
   */
  function TotalPages(total: real, pageSize: nat): (n: int)
    requires pageSize > 0
    ensures n >= 1
    ensures total <= (n * pageSize) as real
    ensures total > 0.0 ==> ((n - 1) * pageSize) as real < total
    ensures total <= pageSize as real ==> n == 1
  {
    var clamped := if total > 0.0 then total else 0.0;
    var pages := Ceil(clamped / pageSize as real);
    CeilScaled(clamped, pageSize, pages);
    if pages > 1 then pages else 1
  }

  /** `n = ceil(x / size)` brackets `x` between `(n - 1) * size` and `n * size`. */
  lemma CeilScaled(x: real, size: nat, n: int)
    requires size > 0 && x / size as real <= n as real < x / size as real + 1.0
    ensures x <= (n * size) as real
    ensures ((n - 1) * size) as real < x
    ensures x <= size as real ==> n <= 1
  {
    var s := size as real;
    var q := x / s;
    QuotientBelow(x, s, n as real);
    QuotientAbove(x, s, (n - 1) as real);
    IntMulToReal(n, size);
    IntMulToReal(n - 1, size);
    if n > 1 {
      AtLeastOnce(s, (n - 1) as real);
    }
  }

  /** `x / s <= m` gives `x <= m * s`. */
  lemma QuotientBelow(x: real, s: real, m: real)
    requires s > 0.0 && x / s <= m
    ensures x <= m * s
  {
    assert (x / s) * s == x;
    RealMulLe(x / s, m, s);
  }

  /** `m < x / s` gives `m * s < x`. */
  lemma QuotientAbove(x: real, s: real, m: real)
    requires s > 0.0 && m < x / s
    ensures m * s < x
  {
    assert (x / s) * s == x;
    RealMulLt(m, x / s, s);
  }

  lemma AtLeastOnce(s: real, m: real)
    requires s > 0.0 && m >= 1.0
    ensures s <= m * s
  {
    RealMulLe(1.0, m, s);
    assert 1.0 * s == s;
  }

  lemma IntMulToReal(a: int, b: int)
    ensures (a * b) as real == a as real * b as real
  {
  }

  lemma RealMulLe(a: real, b: real, c: real)
    requires a <= b && c > 0.0
    ensures a * c <= b * c
  {
    assert b * c - a * c == (b - a) * c;
  }

  lemma RealMulLt(a: real, b: real, c: real)
    requires a < b && c > 0.0
    ensures a * c < b * c
  {
    assert b * c - a * c == (b - a) * c;
  }

  /** The `limit` and `offset` query parameters of a page request. */
  datatype Window = Window(limit: nat, offset: int)

  function PageWindow(page: int, pageSize: nat): Window {
    Window(pageSize, (page - 1) * pageSize)
  }

  /**
   * The page windows tile the rows: every row index below the total lies in
   * the window of exactly one page between 1 and the page count.
   */
  lemma WindowsTileRows(total: nat, pageSize: nat, k: nat)
    requires pageSize > 0 && k < total
    ensures var p := k / pageSize + 1;
            var w := PageWindow(p, pageSize);
            && 1 <= p <= TotalPages(total as real, pageSize)
            && w.offset <= k < w.offset + w.limit
    ensures forall q :: PageWindow(q, pageSize).offset <= k < PageWindow(q, pageSize).offset + pageSize
                        ==> q == k / pageSize + 1
  {
    var p := k / pageSize + 1;
    var n := TotalPages(total as real, pageSize);
    assert (p - 1) * pageSize <= k < p * pageSize by {
      assert k == (k / pageSize) * pageSize + k % pageSize;
    }
    assert (n * pageSize) >= total;
    if p > n {
      MulMonotone(n, p - 1, pageSize);
      assert false;
    }
    forall q | PageWindow(q, pageSize).offset <= k < PageWindow(q, pageSize).offset + pageSize
      ensures q == p
    {
      if q < p {
        MulMonotone(q, p - 1, pageSize);
      } else if q > p {
        MulMonotone(p, q - 1, pageSize);
      }
    }
  }

  lemma MulMonotone(a: int, b: int, c: nat)
    requires a <= b
    ensures a * c <= b * c
  {
    assert b * c - a * c == (b - a) * c;
  }

  /** Consecutive pages ask for adjacent windows. */
  lemma NextWindowFollows(page: int, pageSize: nat)
    ensures PageWindow(page + 1, pageSize).offset
            == PageWindow(page, pageSize).offset + PageWindow(page, pageSize).limit
  {
  }

  // ---------------------------------------------------------------------------
  // Navigation buttons

  datatype Nav = First | Prev | Next | Last

  /**
   * The page after a navigation button click; a disabled button (first and
   * previous on page 1 or below, next and last on the last page or beyond)
   * leaves the page as it is.
   */
  function Navigate(page: int, totalPages: int, nav: Nav): (r: int)
    ensures 1 <= page <= totalPages ==> 1 <= r <= totalPages
    ensures page >= 1 && totalPages >= 1 ==> r >= 1
    ensures nav == First && page > 1 ==> r == 1
    ensures nav == Prev && page > 1 ==> r == page - 1
    ensures nav == Next && page < totalPages ==> r == page + 1
    ensures nav == Last && page < totalPages ==> r == totalPages
    ensures (nav == First || nav == Prev) && page <= 1 ==> r == page
    ensures (nav == Next || nav == Last) && page >= totalPages ==> r == page
  {
    match nav
    case First => if page <= 1 then page else 1
    case Prev => if page <= 1 then page else (if page - 1 > 1 then page - 1 else 1)
    case Next => if page >= totalPages then page else (if page + 1 < totalPages then page + 1 else totalPages)
    case Last => if page >= totalPages then page else totalPages
  }

  /** Next then previous comes back, and previous then next too. */
  lemma NextPrevInverse(page: int, totalPages: int)
    requires 1 <= page <= totalPages
    ensures page < totalPages ==> Navigate(Navigate(page, totalPages, Next), totalPages, Prev) == page
    ensures 1 < page ==> Navigate(Navigate(page, totalPages, Prev), totalPages, Next) == page
  {
  }

  // ---------------------------------------------------------------------------
  // Sorting by a column header

  datatype SortState<K> = SortState(key: K, dir: Dir)

  /**
   * `changeSort(key)`: the current key flips its direction; another key
   * becomes current, ascending.
   */
  function ChangeSort<K(==)>(s: SortState<K>, key: K): (r: SortState<K>)
    ensures r.key == key
    ensures key == s.key ==> r.dir != s.dir
    ensures key != s.key ==> r.dir == Asc
  {
    if key == s.key then s.(dir := Flip(s.dir)) else SortState(key, Asc)
  }

  /**
   * Clicking the current column twice restores the sort; clicking a new
   * column twice leaves it current and descending.
   */
  lemma ChangeSortTwice<K>(s: SortState<K>, key: K)
    ensures key == s.key ==> ChangeSort(ChangeSort(s, key), key) == s
    ensures key != s.key ==> ChangeSort(ChangeSort(s, key), key) == SortState(key, Desc)
  {
  }

  // ---------------------------------------------------------------------------
  // Reading a response

  /**
   * `Number(data?.total ?? data?.count ?? data?.total_count)` if finite, else
   * the number of rows received.
   */
  function TotalFrom(total: Field, count: Field, totalCount: Field, rowCount: nat): (r: real)
    ensures match FirstPresent([total, count, totalCount])
            case Some(f) => r == (if f.Num? then f.v else rowCount as real)
            case None => r == (if totalCount.Null? then 0.0 else rowCount as real)
  {
    CoalesceFirstPresent(total, count, totalCount);
    match ToNumber(Coalesce(total, count, totalCount))
    case Some(v) => v
    case None => rowCount as real
  }

  /** The fields of a decoded response body the tables read. */
  datatype Body<R> = Body(
    results: Option<seq<R>>,   // None when `results` is not an array
    total: Field,
    count: Field,
    totalCount: Field,
    error: string)             // the `error` field, "" when absent or empty

  /** The body of a response whose JSON does not parse: `{}`. */
  function EmptyBody<R>(): Body<R> {
    Body(None, Undefined, Undefined, Undefined, "")
  }

  datatype Response<R> =
    | Unreachable(reason: string)               // fetch throws; `reason` is how the error prints
    | Answered(ok: bool, status: nat, body: Body<R>)

  /** What a settled request leaves in the table, or the message that replaces it. */
  datatype Outcome<R> = Rows(rows: seq<R>, total: real) | Failure(message: string)

  function DigitChar(d: nat): char
    requires d < 10
  {
    ['0', '1', '2', '3', '4', '5', '6', '7', '8', '9'][d]
  }

  /** `String(n)` for a natural number. */
  function NatToString(n: nat): (r: string)
    ensures |r| >= 1
    decreases n
  {
    if n < 10 then [DigitChar(n)] else NatToString(n / 10) + [DigitChar(n % 10)]
  }

  predicate AllDigits(s: string) {
    forall i :: 0 <= i < |s| ==> '0' <= s[i] <= '9'
  }

  /** The number a string of decimal digits denotes. */
  function DigitsValue(s: string): nat
    requires AllDigits(s)
  {
    if |s| == 0 then 0 else DigitsValue(s[..|s| - 1]) * 10 + (s[|s| - 1] as int - '0' as int)
  }

  /** `String(n)` is the decimal numeral of `n`: reading it back gives `n`. */
  lemma {:induction false} NatToStringRoundTrip(n: nat)
    ensures AllDigits(NatToString(n)) && DigitsValue(NatToString(n)) == n
    decreases n
  {
    var s := NatToString(n);
    if n >= 10 {
      NatToStringRoundTrip(n / 10);
      assert s[..|s| - 1] == NatToString(n / 10);
      assert s[|s| - 1] == DigitChar(n % 10);
    }
  }

  /** Different numbers have different numerals. */
  lemma NatToStringInjective(m: nat, n: nat)
    ensures NatToString(m) == NatToString(n) ==> m == n
  {
    NatToStringRoundTrip(m);
    NatToStringRoundTrip(n);
  }

  /** A non-2xx answer fails with the body's `error`, or `HTTP <status>` without one. */
  function Settle<R>(resp: Response<R>): (o: Outcome<R>)
    ensures resp.Answered? && resp.ok ==> o.Rows?
    ensures o.Rows? ==> resp.Answered? && o.rows == resp.body.results.GetOr([])
    ensures o.Rows? ==> o.total == TotalFrom(resp.body.total, resp.body.count, resp.body.totalCount, |o.rows|)
    ensures resp.Answered? && !resp.ok ==>
            o.Failure? && (resp.body.error != "" ==> o.message == resp.body.error)
    ensures resp.Answered? && !resp.ok && resp.body.error == "" ==>
            o == Failure("HTTP " + NatToString(resp.status))
    ensures resp.Unreachable? ==> o == Failure(resp.reason)
  {
    match resp
    case Unreachable(reason) => Failure(reason)
    case Answered(ok, status, body) =>
      if !ok then Failure(if body.error != "" then body.error else "HTTP " + NatToString(status))
      else
        var rows := body.results.GetOr([]);
        Rows(rows, TotalFrom(body.total, body.count, body.totalCount, |rows|))
  }

  /** An answer without any count reports as its total the number of rows received. */
  lemma MissingTotalCountsRows<R>(resp: Response<R>)
    ensures resp.Answered? && resp.ok
            && resp.body.total == Undefined && resp.body.count == Undefined
            && resp.body.totalCount == Undefined
            ==> Settle(resp).total == |resp.body.results.GetOr([])| as real
  {
  }

  /** `Number(choice) || fallback` for a select whose value converts to `choice` (None for NaN). */
  function Chosen(choice: Option<nat>, fallback: nat): (r: nat)
    requires fallback > 0
    ensures r > 0
    ensures r == fallback || choice == Some(r)
    ensures choice.Some? && choice.value != 0 ==> r == choice.value
    ensures choice == None || choice == Some(0) ==> r == fallback
  {
    match choice
    case Some(n) => if n != 0 then n else fallback
    case None => fallback
  }
}

=== FILE: query_builder.dfy ===
/**
 * The query builder component (src/components/QueryBuilder.jsx) as a state
 * machine: the input text, the query it mirrors, the autocomplete
 * vocabulary, and the suggestion panel.
 */
module QueryBuilder {
  import opened JsValues
  import opened Strings
  import opened Sequences
  import opened Search
  import opened QueryText

  /** At most this many suggestions are listed. */
  const MaxSuggestions: nat := 8

  /**
   * The suggestion list for the word `w`: the first eight vocabulary entries
   * that contain `w`, ignoring case, in vocabulary order.
   */
  function Suggest(vocabulary: seq<string>, w: string): (r: seq<string>)
    ensures |r| <= MaxSuggestions
    ensures IsSubsequence(r, vocabulary)
    ensures forall i :: 0 <= i < |r| ==> Matches(r[i], Lower(w))
    ensures r <= Matching(vocabulary, Lower(w))
    ensures |Matching(vocabulary, Lower(w))| <= MaxSuggestions ==> r == Matching(vocabulary, Lower(w))
    ensures |Matching(vocabulary, Lower(w))| >= MaxSuggestions ==> |r| == MaxSuggestions
  {
    var all := Matching(vocabulary, Lower(w));
    SubsequencePrefix(all, vocabulary, if MaxSuggestions < |all| then MaxSuggestions else |all|);
    Take(all, MaxSuggestions)
  }

  /** Some vocabulary entry contains `w`, ignoring case, exactly when there is a suggestion. */
  lemma SuggestNonEmpty(vocabulary: seq<string>, w: string)
    ensures Suggest(vocabulary, w) != [] <==>
            exists i :: 0 <= i < |vocabulary| && Matches(vocabulary[i], Lower(w))
  {
    var all := Matching(vocabulary, Lower(w));
    if exists i :: 0 <= i < |vocabulary| && Matches(vocabulary[i], Lower(w)) {
      var i :| 0 <= i < |vocabulary| && Matches(vocabulary[i], Lower(w));
      assert vocabulary[i] in multiset(vocabulary);
      assert multiset(all)[vocabulary[i]] > 0;
    }
    if Suggest(vocabulary, w) != [] {
      var t := all[0];
      assert multiset(all)[t] > 0;
      var i :| 0 <= i < |vocabulary| && vocabulary[i] == t;
    }
  }

  // ---------------------------------------------------------------------------
  // Component state

  datatype Builder = Builder(
    input: string,              // inputValue
    query: string,              // the shared query as last set or received
    vocabulary: seq<string>,    // allTerms
    suggestions: seq<string>,
    open: bool)                 // showSuggestions

  datatype Event =
    | Typed(value: string, cursor: nat)           // handleInputChange
    | SuggestionPicked(term: string, cursor: nat) // handleSuggestionClick
    | Appended(token: string)                     // an operator button: append(token)
    | Cleared                                     // handleClear
    | KeyDown(key: string)                        // handleKeyDown
    | PointerDownOutside                          // the document mousedown handler
    | QueryChanged(q: string)                     // the effect that mirrors the query prop
    | VocabularyLoaded(terms: Option<seq<string>>) // /terms answered; None when `terms` is not an array

  /** The state after mounting with the shared query `q`. */
  function Mount(q: string): Builder {
    Builder(q, q, [], [], false)
  }

  /** The input mirrors the query, and an open panel lists one to eight suggestions. */
  predicate Valid(b: Builder) {
    && b.input == b.query
    && (b.open ==> 1 <= |b.suggestions| <= MaxSuggestions)
  }

  /**
   * The builder after an event. Only typing opens the panel or changes the
   * suggestions, only the vocabulary answer changes the vocabulary, and the
   * key, outside-press and vocabulary events leave the text alone while
   * every other event sets input and query to the same text.
   */
  function Step(b: Builder, e: Event): (r: Builder)
    ensures !e.VocabularyLoaded? ==> r.vocabulary == b.vocabulary
    ensures e.VocabularyLoaded? ==> r.vocabulary == e.terms.GetOr([])
    ensures !e.Typed? ==> r.suggestions == b.suggestions
    ensures r.open && !b.open ==> e.Typed?
    ensures e.SuggestionPicked? || e.Cleared? || e.PointerDownOutside? ==> !r.open
    ensures e.KeyDown? || e.PointerDownOutside? || e.VocabularyLoaded? ==>
            r.input == b.input && r.query == b.query
    ensures !(e.KeyDown? || e.PointerDownOutside? || e.VocabularyLoaded?) ==> r.input == r.query
  {
    match e
    case Typed(value, cursor) =>
      var w := CurrentWord(value, cursor);
      if TriggersSuggestions(w) then
        var found := Suggest(b.vocabulary, w);
        b.(input := value, query := value, suggestions := found, open := |found| > 0)
      else
        b.(input := value, query := value, open := false)
    case SuggestionPicked(term, cursor) =>
      var text := AcceptSuggestion(b.input, cursor, term);
      b.(input := text, query := text, open := false)
    case Appended(token) =>
      var text := Append(b.input, token);
      b.(input := text, query := text)
    case Cleared =>
      b.(input := "", query := "", open := false)
    case KeyDown(key) =>
      if key == "Enter" || key == "Escape" then b.(open := false) else b
    case PointerDownOutside =>
      b.(open := false)
    case QueryChanged(q) =>
      b.(input := q, query := q)
    case VocabularyLoaded(terms) =>
      b.(vocabulary := terms.GetOr([]))
  }

  /** Every event keeps the builder valid, starting from any mount. */
  lemma StepPreservesValid(b: Builder, e: Event)
    requires Valid(b)
    ensures Valid(Step(b, e))
  {
  }

  lemma MountValid(q: string)
    ensures Valid(Mount(q)) && Mount(q).input == q && !Mount(q).open
  {
  }

  /**
   * Typing sets the input and the query to the typed text, and opens the
   * panel exactly when the word under the cursor is at least two characters,
   * neither an operator nor a coordinate literal, and contained, ignoring
   * case, in some vocabulary entry; the listed suggestions then all contain it.
   */
  lemma TypedOpensPanel(b: Builder, value: string, cursor: nat)
    ensures var b' := Step(b, Typed(value, cursor));
            var w := CurrentWord(value, cursor);
            && b'.input == value && b'.query == value
            && (b'.open <==>
                  && |w| >= 2
                  && Upper(w) !in Operators
                  && !StartsWith(w, "[")
                  && exists i :: 0 <= i < |b.vocabulary| && Matches(b.vocabulary[i], Lower(w)))
            && (b'.open ==> forall i :: 0 <= i < |b'.suggestions| ==> Matches(b'.suggestions[i], Lower(w)))
            && (|w| >= 2 && Upper(w) !in Operators && !StartsWith(w, "[") ==>
                  b'.suggestions == Suggest(b.vocabulary, w))
            && (!(|w| >= 2 && Upper(w) !in Operators && !StartsWith(w, "[")) ==>
                  b'.suggestions == b.suggestions)
            && (b'.open ==> b'.suggestions == Suggest(b.vocabulary, w))
  {
    SuggestNonEmpty(b.vocabulary, CurrentWord(value, cursor));
  }

  /**
   * Picking a suggestion closes the panel and sets input and query to the
   * same text: the before-cursor text with its white-space runs collapsed
   * and the word before the cursor replaced by the term, then the
   * after-cursor text; on single-spaced text exactly that word is replaced.
   * The vocabulary and the suggestion list stay as they were.
   */
  lemma PickedReplacesWord(b: Builder, term: string, cursor: nat)
    ensures var b' := Step(b, SuggestionPicked(term, cursor));
            && !b'.open
            && b'.input == b'.query
            && b'.vocabulary == b.vocabulary && b'.suggestions == b.suggestions
    ensures var b' := Step(b, SuggestionPicked(term, cursor));
            var c := Collapse(BeforeCursor(b.input, cursor));
            var w := CurrentWord(b.input, cursor);
            |w| <= |c| && b'.input == c[..|c| - |w|] + term + AfterCursor(b.input, cursor)
    ensures var b' := Step(b, SuggestionPicked(term, cursor));
            var before := BeforeCursor(b.input, cursor);
            var w := CurrentWord(b.input, cursor);
            SingleSpaced(before) ==>
              b'.input == before[..|before| - |w|] + term + AfterCursor(b.input, cursor)
  {
    AcceptSuggestionRewrites(b.input, cursor, term);
    if SingleSpaced(BeforeCursor(b.input, cursor)) {
      AcceptSuggestionSingleSpaced(b.input, cursor, term);
    }
  }

  /** Clearing empties the input and the query and closes the panel. */
  lemma ClearEmpties(b: Builder)
    ensures Step(b, Cleared) == b.(input := "", query := "", open := false)
    ensures Valid(Step(b, Cleared))
  {
  }

  /** Enter and Escape close the panel and leave the text alone; other keys change nothing. */
  lemma KeysOnlyClose(b: Builder, key: string)
    ensures var b' := Step(b, KeyDown(key));
            && b'.input == b.input && b'.query == b.query && b'.suggestions == b.suggestions
            && (key == "Enter" || key == "Escape" ==> !b'.open)
            && (key != "Enter" && key != "Escape" ==> b' == b)
  {
  }
}

=== FILE: query_text.dfy ===
/**
 * The query token model of the query builder: the word under the cursor,
 * its classification, appending a token, and the rewrite that accepts an
 * autocomplete suggestion (src/components/QueryBuilder.jsx).
 */
module QueryText {
  import opened Strings

  /** The cursor as `slice` sees it: clamped to the end of the text. */
  function ClampCursor(text: string, cursor: nat): (k: nat)
    ensures k <= |text|
    ensures k == cursor || (cursor > |text| && k == |text|)
  {
    if cursor < |text| then cursor else |text|
  }

  /** `text.slice(0, cursor)`. */
  function BeforeCursor(text: string, cursor: nat): string {
    text[..ClampCursor(text, cursor)]
  }

  /** `text.slice(cursor)`. */
  function AfterCursor(text: string, cursor: nat): string {
    text[ClampCursor(text, cursor)..]
  }

  lemma CursorSplitsText(text: string, cursor: nat)
    ensures BeforeCursor(text, cursor) + AfterCursor(text, cursor) == text
  {
  }

  /**
   * `getCurrentWord`: the last piece of the before-cursor text split on
   * white-space runs, which is the word that text ends with.
   */
  function CurrentWord(text: string, cursor: nat): (w: string)
    ensures IsLastWord(w, BeforeCursor(text, cursor))
    ensures w == "" <==>
            (BeforeCursor(text, cursor) == "" || EndsInWhitespace(BeforeCursor(text, cursor)))
  {
    var words := Split(BeforeCursor(text, cursor));
    SplitLastWord(BeforeCursor(text, cursor));
    words[|words| - 1]
  }

  // ---------------------------------------------------------------------------
  // Classification of the current word

  datatype WordKind = Operator | Coordinate | Term

  /** The operator spellings the builder recognises once upper-cased. */
  const Operators: seq<string> := ["AND", "OR", "NOT", "(", ")"]

  function Classify(w: string): WordKind {
    if Upper(w) in Operators then Operator
    else if StartsWith(w, "[") then Coordinate
    else Term
  }

  /** The word is long enough and is neither an operator nor a coordinate literal. */
  predicate TriggersSuggestions(w: string) {
    |w| >= 2 && Classify(w) == Term
  }

  lemma {:induction false} OperatorsNeverTrigger(w: string)
    requires Upper(w) in Operators || StartsWith(w, "[") || |w| < 2
    ensures !TriggersSuggestions(w)
  {
  }

  // ---------------------------------------------------------------------------
  // Editing

  /** `text ? `${text} ${token}` : token`: appends a token after one space. */
  function Append(text: string, token: string): (r: string)
    ensures text == "" ==> r == token
    ensures text != "" ==> |r| == |text| + 1 + |token| && r[..|text|] == text
                           && r[|text|] == ' ' && r[|text| + 1..] == token
  {
    if text == "" then token else text + " " + token
  }

  /**
   * Appending to text that does not end in white space a token that does not
   * start with it adds exactly the token's words after the text's words.
   */
  lemma {:induction false} AppendAddsWords(text: string, token: string)
    requires text != "" && !EndsInWhitespace(text)
    requires token == "" || !IsWhitespace(token[0])
    ensures Split(Append(text, token)) == Split(text) + Split(token)
    decreases |text|
  {
    if |text| == 1 {
      AppendToSingleChar(text, token);
    } else {
      AppendAddsWords(text[1..], token);
      if !IsWhitespace(text[0]) {
        AppendStepWord(text, token);
      } else {
        AppendStepSpace(text, token);
      }
    }
  }

  /**
   * For any text and token, appending adds exactly the token's words after
   * the text's words, white space at the ends of either notwithstanding.
   */
  lemma AppendWords(text: string, token: string)
    ensures Words(Append(text, token)) == Words(text) + Words(token)
  {
    if text == "" {
      WordsEmpty();
    } else {
      var spaced := " " + token;
      assert Append(text, token) == text + spaced;
      WordsConcat(text, spaced);
      WordsSpaceStep(spaced);
      assert spaced[1..] == token;
    }
  }

  lemma AppendToSingleChar(text: string, token: string)
    requires |text| == 1 && !IsWhitespace(text[0])
    requires token == "" || !IsWhitespace(token[0])
    ensures Split(Append(text, token)) == Split(text) + Split(token)
  {
    var a := Append(text, token);
    assert a[1..] == " " + token;
    assert (" " + token)[1..] == token;
    SplitBreakStep(" " + token);
    SplitWordStep(a);
  }

  lemma AppendStepWord(text: string, token: string)
    requires |text| > 1 && !IsWhitespace(text[0])
    requires Split(Append(text[1..], token)) == Split(text[1..]) + Split(token)
    ensures Split(Append(text, token)) == Split(text) + Split(token)
  {
    var longer := Append(text, token);
    assert longer[1..] == Append(text[1..], token);
    SplitWordStep(text);
    SplitWordStep(longer);
    ConsOntoHead(text[0], Split(text[1..]), Split(token));
  }


  lemma AppendStepSpace(text: string, token: string)
    requires |text| > 1 && IsWhitespace(text[0])
    requires Split(Append(text[1..], token)) == Split(text[1..]) + Split(token)
    ensures Split(Append(text, token)) == Split(text) + Split(token)
  {
    var longer := Append(text, token);
    assert longer[1..] == Append(text[1..], token);
    assert longer[1] == text[1];
    if IsWhitespace(text[1]) {
      SplitRunStep(text);
      SplitRunStep(longer);
    } else {
      SplitBreakStep(text);
      SplitBreakStep(longer);
    }
  }

  /** `handleSuggestionClick`'s rewrite of the input for an accepted `term`. */
  function AcceptSuggestion(text: string, cursor: nat, term: string): (r: string)
    ensures IsSuffix(AfterCursor(text, cursor), r)
  {
    var words := Split(BeforeCursor(text, cursor));
    Join(words[..|words| - 1] + [term]) + AfterCursor(text, cursor)
  }

  /**
   * Accepting a suggestion keeps the after-cursor text verbatim and turns
   * the before-cursor text into its white-space-collapsed form with the
   * current word replaced by the term.
   */
  lemma AcceptSuggestionRewrites(text: string, cursor: nat, term: string)
    ensures var c := Collapse(BeforeCursor(text, cursor));
            var w := CurrentWord(text, cursor);
            |w| <= |c| &&
            AcceptSuggestion(text, cursor, term) == c[..|c| - |w|] + term + AfterCursor(text, cursor)
  {
    var words := Split(BeforeCursor(text, cursor));
    JoinReplaceLast(words, term);
    JoinSplit(BeforeCursor(text, cursor));
  }

  /**
   * On single-spaced text the rewrite replaces exactly the current word and
   * leaves every other character in place.
   */
  lemma AcceptSuggestionSingleSpaced(text: string, cursor: nat, term: string)
    requires SingleSpaced(BeforeCursor(text, cursor))
    ensures var b := BeforeCursor(text, cursor);
            var w := CurrentWord(text, cursor);
            AcceptSuggestion(text, cursor, term) == b[..|b| - |w|] + term + AfterCursor(text, cursor)
  {
    AcceptSuggestionRewrites(text, cursor, term);
    CollapseSingleSpaced(BeforeCursor(text, cursor));
  }
}

=== FILE: scenarios.dfy ===
/**
 * Worked examples of the query model and the workspace, stated on concrete
 * values: the current word, appending, picking a suggestion and then a term,
 * and a corrupt saved layout.
 */
module Scenarios {
  import opened JsValues
  import opened Strings
  import opened Search
  import opened QueryText
  import QueryBuilder
  import App

  lemma NoSpaceIn(s: string)
    requires forall i :: 0 <= i < |s| ==> 'a' <= s[i] <= 'z'
    ensures NoWhitespace(s)
  {
  }

  /** The word under the cursor at the end, inside, and in the empty text. */
  lemma CurrentWordExamples()
    ensures CurrentWord("foo bar", 7) == "bar"
    ensures CurrentWord("foo bar", 3) == "foo"
    ensures CurrentWord("", 0) == ""
  {
    assert BeforeCursor("foo bar", 7) == "foo bar";
    assert "foo bar"[4..] == "bar";
    NoSpaceIn("bar");
    LastWordUnique(CurrentWord("foo bar", 7), "bar", "foo bar");
    assert BeforeCursor("foo bar", 3) == "foo";
    NoSpaceIn("foo");
    assert "foo"[0..] == "foo";
    LastWordUnique(CurrentWord("foo bar", 3), "foo", "foo");
  }

  lemma AppendExamples()
    ensures Append("", "AND") == "AND"
    ensures Append("foo", "AND") == "foo AND"
  {
  }

  lemma EmIsCurrentWord()
    ensures CurrentWord("em", 2) == "em"
    ensures Split(BeforeCursor("em", 2)) == ["em"]
  {
    assert BeforeCursor("em", 2) == "em";
    NoSpaceIn("em");
    assert "em"[0..] == "em";
    LastWordUnique(CurrentWord("em", 2), "em", "em");
    SplitPieces("em");
  }

  /**
   * Clicking the suggestion `emotion` while the input is `em` makes the
   * query `emotion` and closes the panel; a click on the term `fear` in the
   * term list then gives `emotion AND fear` once the AND button has been
   * pressed (`PickFear`).
   */
  lemma PickingSession(b: QueryBuilder.Builder)
    requires b.input == "em"
    ensures QueryBuilder.Step(b, QueryBuilder.SuggestionPicked("emotion", 2))
            == b.(input := "emotion", query := "emotion", open := false)
  {
    EmIsCurrentWord();
    assert AfterCursor("em", 2) == "";
    assert ["em"][..0] + ["emotion"] == ["emotion"];
    assert Join(["emotion"]) == "emotion";
  }

  lemma PickFear()
    ensures App.PickTerm("emotion AND", "fear") == "emotion AND fear"
  {
  }

  /** A saved layout that is not JSON leaves the default `[28, 44, 28]`. */
  lemma CorruptLayoutFallsBack()
    ensures App.MountSizes(App.Unparsable) == App.Sizes(28.0, 44.0, 28.0)
    ensures App.MountSizes(App.Parsed(App.JArray([50.0, 50.0]))) == App.DefaultSizes
  {
  }
}

=== FILE: search.dfy ===
/**
 * Case-insensitive substring filtering of the vocabulary, the one matching
 * rule behind both the autocomplete list (QueryBuilder.jsx) and the term
 * list search (Terms.jsx): `terms.filter(t => t.toLowerCase().includes(needle))`.
 */
module Search {
  import opened Strings
  import opened Sequences

  /** `t.toLowerCase().includes(needle)`. */
  predicate Matches(t: string, needle: string) {
    Contains(Lower(t), needle)
  }

  /**
   * The terms that match `needle`, in vocabulary order: an order-preserving
   * subsequence that keeps every matching entry with its multiplicity and
   * no other entry.
   */
  function Matching(terms: seq<string>, needle: string): (r: seq<string>)
    ensures |r| <= |terms|
    ensures IsSubsequence(r, terms)
    ensures forall i :: 0 <= i < |r| ==> Matches(r[i], needle)
    ensures forall t :: Matches(t, needle) ==> multiset(r)[t] == multiset(terms)[t]
    ensures forall t :: !Matches(t, needle) ==> multiset(r)[t] == 0
    decreases |terms|
  {
    if |terms| == 0 then []
    else
      var rest := Matching(terms[1..], needle);
      assert terms == [terms[0]] + terms[1..];
      if Matches(terms[0], needle) then
        var r := [terms[0]] + rest;
        assert r[1..] == rest;
        assert forall i :: 1 <= i < |r| ==> r[i] == rest[i - 1];
        r
      else
        rest
  }

  /** Every entry matches the empty needle, so filtering by it keeps the list. */
  lemma {:induction false} MatchingEmptyNeedle(terms: seq<string>)
    ensures Matching(terms, "") == terms
    decreases |terms|
  {
    if |terms| > 0 {
      MatchingEmptyNeedle(terms[1..]);
      ContainsEmpty(Lower(terms[0]));
      assert terms == [terms[0]] + terms[1..];
    }
  }

  /** When every entry matches, filtering keeps the whole list. */
  lemma {:induction false} MatchingAll(terms: seq<string>, needle: string)
    requires forall i :: 0 <= i < |terms| ==> Matches(terms[i], needle)
    ensures Matching(terms, needle) == terms
    decreases |terms|
  {
    if |terms| > 0 {
      MatchingAll(terms[1..], needle);
      assert terms == [terms[0]] + terms[1..];
    }
  }
}

=== FILE: sequences.dfy ===
/**
 * Sequence operations shared by the list views: order-preserving
 * subsequences, `slice(0, n)`, and the sort by a numeric key that
 * `Array.prototype.sort` performs with a `(A - B) * dir` comparator.
 */
module Sequences {

  /** `a` is obtained from `b` by deleting elements, keeping the order of the rest. */
  ghost predicate IsSubsequence<T>(a: seq<T>, b: seq<T>)
    decreases |b|
  {
    |a| == 0 ||
    (|b| > 0 && ((a[0] == b[0] && IsSubsequence(a[1..], b[1..])) || IsSubsequence(a, b[1..])))
  }

  lemma {:induction false} SubsequenceRefl<T>(a: seq<T>)
    ensures IsSubsequence(a, a)
    decreases |a|
  {
    if |a| > 0 {
      SubsequenceRefl(a[1..]);
    }
  }

  /** A prefix of a subsequence is again a subsequence. */
  lemma {:induction false} SubsequencePrefix<T>(a: seq<T>, b: seq<T>, k: nat)
    requires IsSubsequence(a, b)
    requires k <= |a|
    ensures IsSubsequence(a[..k], b)
    decreases |b|
  {
    if k > 0 {
      if a[0] == b[0] && IsSubsequence(a[1..], b[1..]) {
        SubsequencePrefix(a[1..], b[1..], k - 1);
        assert a[..k][1..] == a[1..][..k - 1];
      } else {
        SubsequencePrefix(a, b[1..], k);
      }
    }
  }

  /** `xs.slice(0, n)` for a non-negative `n`: the first `min(n, |xs|)` elements. */
  function Take<T>(xs: seq<T>, n: nat): (r: seq<T>)
    ensures |r| == if n < |xs| then n else |xs|
    ensures r <= xs
  {
    if n < |xs| then xs[..n] else xs
  }

  // ---------------------------------------------------------------------------
  // Sorting by a numeric key

  datatype Dir = Asc | Desc

  /** The direction toggle `d === 'asc' ? 'desc' : 'asc'`. */
  function Flip(d: Dir): (r: Dir)
    ensures r != d
  {
    if d == Asc then Desc else Asc
  }

  /** Two keys are in `dir` order: non-decreasing for `Asc`, non-increasing for `Desc`. */
  predicate InOrder(a: real, b: real, dir: Dir) {
    if dir == Asc then a <= b else b <= a
  }

  ghost predicate Ordered<T>(xs: seq<T>, key: T -> real, dir: Dir) {
    forall i, j :: 0 <= i < j < |xs| ==> InOrder(key(xs[i]), key(xs[j]), dir)
  }

  /** Every element of `zs` may follow `y`. */
  ghost predicate Precedes<T>(y: T, zs: seq<T>, key: T -> real, dir: Dir) {
    forall j :: 0 <= j < |zs| ==> InOrder(key(y), key(zs[j]), dir)
  }

  lemma OrderedCons<T>(y: T, zs: seq<T>, key: T -> real, dir: Dir)
    requires Ordered(zs, key, dir) && Precedes(y, zs, key, dir)
    ensures Ordered([y] + zs, key, dir)
  {
    var r := [y] + zs;
    forall i, j | 0 <= i < j < |r| ensures InOrder(key(r[i]), key(r[j]), dir) {
      assert r[j] == zs[j - 1];
      if i > 0 { assert r[i] == zs[i - 1]; }
    }
  }

  lemma PrecedesOrdered<T>(zs: seq<T>, key: T -> real, dir: Dir)
    requires |zs| > 0 && Ordered(zs, key, dir)
    ensures Precedes(zs[0], zs[1..], key, dir)
  {
    forall j | 0 <= j < |zs[1..]| ensures InOrder(key(zs[0]), key(zs[1..][j]), dir) {
      assert zs[1..][j] == zs[j + 1];
    }
  }

  lemma PrecedesTrans<T>(x: T, y: T, zs: seq<T>, key: T -> real, dir: Dir)
    requires InOrder(key(x), key(y), dir) && Precedes(y, zs, key, dir)
    ensures Precedes(x, zs, key, dir)
  {
  }

  lemma PrecedesPermutation<T>(y: T, x: T, a: seq<T>, b: seq<T>, key: T -> real, dir: Dir)
    requires multiset(a) == multiset(b) + multiset{x}
    requires Precedes(y, b, key, dir) && InOrder(key(y), key(x), dir)
    ensures Precedes(y, a, key, dir)
  {
    forall j | 0 <= j < |a| ensures InOrder(key(y), key(a[j]), dir) {
      assert a[j] in multiset(a);
      if a[j] != x {
        assert a[j] in multiset(b);
        var k :| 0 <= k < |b| && b[k] == a[j];
      }
    }
  }

  /** In an ordered sequence every element of a prefix may precede every element after it. */
  lemma OrderedSplit<T>(xs: seq<T>, n: nat, key: T -> real, dir: Dir)
    requires n <= |xs| && Ordered(xs, key, dir)
    ensures forall x, y :: x in multiset(xs[..n]) && y in multiset(xs[n..]) ==> InOrder(key(x), key(y), dir)
  {
    forall x, y | x in multiset(xs[..n]) && y in multiset(xs[n..])
      ensures InOrder(key(x), key(y), dir)
    {
      assert x in xs[..n];
      var i :| 0 <= i < n && xs[..n][i] == x;
      assert y in xs[n..];
      var j :| 0 <= j < |xs| - n && xs[n..][j] == y;
      assert xs[i] == x && xs[n + j] == y;
    }
  }

  /** Inserts `x` before the first element it may precede; equal keys keep `x` first. */
  function Insert<T>(x: T, ys: seq<T>, key: T -> real, dir: Dir): (r: seq<T>)
    requires Ordered(ys, key, dir)
    ensures multiset(r) == multiset(ys) + multiset{x}
    ensures Ordered(r, key, dir)
    ensures |r| == |ys| + 1
    decreases |ys|
  {
    if |ys| == 0 then [x]
    else
      PrecedesOrdered(ys, key, dir);
      if InOrder(key(x), key(ys[0]), dir) then
        assert ys == [ys[0]] + ys[1..];
        OrderedCons(ys[0], ys[1..], key, dir);
        PrecedesTrans(x, ys[0], ys, key, dir);
        OrderedCons(x, ys, key, dir);
        [x] + ys
      else
        var rest := Insert(x, ys[1..], key, dir);
        assert ys == [ys[0]] + ys[1..];
        PrecedesPermutation(ys[0], x, rest, ys[1..], key, dir);
        OrderedCons(ys[0], rest, key, dir);
        [ys[0]] + rest
  }

  /**
   * `[...xs].sort((a, b) => (key(a) - key(b)) * (dir === 'asc' ? 1 : -1))`:
   * an insertion sort of `xs` by `key` in direction `dir`.
   */
  function SortByKey<T>(xs: seq<T>, key: T -> real, dir: Dir): (r: seq<T>)
    ensures multiset(r) == multiset(xs)
    ensures Ordered(r, key, dir)
    ensures |r| == |xs|
    decreases |xs|
  {
    if |xs| == 0 then []
    else
      assert xs == [xs[0]] + xs[1..];
      Insert(xs[0], SortByKey(xs[1..], key, dir), key, dir)
  }

  /** Sorting by a key that is already in order leaves the sequence unchanged. */
  lemma {:induction false} SortOrderedIsIdentity<T>(xs: seq<T>, key: T -> real, dir: Dir)
    requires Ordered(xs, key, dir)
    ensures SortByKey(xs, key, dir) == xs
    decreases |xs|
  {
    if |xs| > 0 {
      assert Ordered(xs[1..], key, dir) by {
        forall i, j | 0 <= i < j < |xs[1..]|
          ensures InOrder(key(xs[1..][i]), key(xs[1..][j]), dir)
        {
          assert xs[1..][i] == xs[i + 1] && xs[1..][j] == xs[j + 1];
        }
      }
      SortOrderedIsIdentity(xs[1..], key, dir);
      if |xs| > 1 {
        assert InOrder(key(xs[0]), key(xs[1]), dir);
      }
      assert xs == [xs[0]] + xs[1..];
    }
  }
}

=== FILE: strings.dfy ===
/**
 * The string primitives the query components use: JavaScript's `\s` class,
 * ASCII case folding for `toLowerCase`/`toUpperCase`, `includes`,
 * `startsWith`, `trim`, `split(/\s+/)` and `join(' ')`.
 */
module Strings {

  /** Membership in JavaScript's `\s` class (white space and line terminators). */
  predicate IsWhitespace(c: char) {
    var n := c as int;
    (9 <= n <= 13) || n == 0x20 || n == 0xA0 || n == 0x1680
    || (0x2000 <= n <= 0x200A) || n == 0x2028 || n == 0x2029
    || n == 0x202F || n == 0x205F || n == 0x3000 || n == 0xFEFF
  }

  predicate NoWhitespace(s: string) {
    forall i :: 0 <= i < |s| ==> !IsWhitespace(s[i])
  }

  predicate EndsInWhitespace(s: string) {
    |s| > 0 && IsWhitespace(s[|s| - 1])
  }

  predicate IsSuffix(w: string, s: string) {
    |w| <= |s| && s[|s| - |w|..] == w
  }

  /**
   * `w` is the word `s` ends with: a whitespace-free suffix of `s` that is
   * either all of `s` or preceded by a whitespace character.
   */
  predicate IsLastWord(w: string, s: string) {
    && IsSuffix(w, s)
    && NoWhitespace(w)
    && (|w| < |s| ==> IsWhitespace(s[|s| - |w| - 1]))
  }

  /** At most one string is the last word of `s`. */
  lemma LastWordUnique(w1: string, w2: string, s: string)
    requires IsLastWord(w1, s) && IsLastWord(w2, s)
    ensures w1 == w2
  {
  }

  /** The last piece of a split is the word the text ends with, empty exactly when the text is empty or ends in white space. */
  lemma SplitLastWord(s: string)
    ensures IsLastWord(Split(s)[|Split(s)| - 1], s)
    ensures Split(s)[|Split(s)| - 1] == "" <==> (s == "" || EndsInWhitespace(s))
  {
    SplitPieces(s);
    LastWordEmpty(Split(s)[|Split(s)| - 1], s);
  }

  /** The last word is empty exactly when the text is empty or ends in white space. */
  lemma LastWordEmpty(w: string, s: string)
    requires IsLastWord(w, s)
    ensures w == "" <==> (s == "" || EndsInWhitespace(s))
  {
    if w != "" {
      assert s[|s| - 1] == w[|w| - 1];
    }
  }

  // ---------------------------------------------------------------------------
  // Case folding (ASCII only)

  function LowerChar(c: char): char {
    if 'A' <= c <= 'Z' then (c as int + 32) as char else c
  }

  function UpperChar(c: char): char {
    if 'a' <= c <= 'z' then (c as int - 32) as char else c
  }

  function Lower(s: string): (r: string)
    ensures |r| == |s|
    ensures forall i :: 0 <= i < |s| ==> r[i] == LowerChar(s[i])
  {
    seq(|s|, i requires 0 <= i < |s| => LowerChar(s[i]))
  }

  function Upper(s: string): (r: string)
    ensures |r| == |s|
    ensures forall i :: 0 <= i < |s| ==> r[i] == UpperChar(s[i])
  {
    seq(|s|, i requires 0 <= i < |s| => UpperChar(s[i]))
  }

  // ---------------------------------------------------------------------------
  // includes / startsWith

  /** `hay.includes(needle)`: `needle` occurs in `hay` at some position. */
  predicate Contains(hay: string, needle: string)
    decreases |hay|
  {
    needle <= hay || (|hay| > 0 && Contains(hay[1..], needle))
  }

  /** `Contains` agrees with the positional reading of substring occurrence. */
  lemma {:induction false} ContainsAt(hay: string, needle: string)
    ensures Contains(hay, needle) <==>
            exists i :: 0 <= i <= |hay| - |needle| && needle <= hay[i..]
    decreases |hay|
  {
    if needle <= hay {
      assert hay[0..] == hay;
    } else if |hay| > 0 {
      ContainsAt(hay[1..], needle);
      ContainsShift(hay, needle);
    }
  }

  lemma ContainsShift(hay: string, needle: string)
    requires |hay| > 0 && !(needle <= hay)
    ensures (exists i :: 0 <= i <= |hay| - |needle| && needle <= hay[i..]) <==>
            (exists i :: 0 <= i <= |hay[1..]| - |needle| && needle <= hay[1..][i..])
  {
    if exists i :: 0 <= i <= |hay| - |needle| && needle <= hay[i..] {
      var i :| 0 <= i <= |hay| - |needle| && needle <= hay[i..];
      assert i != 0;
      assert hay[1..][i - 1..] == hay[i..];
    }
    if exists i :: 0 <= i <= |hay[1..]| - |needle| && needle <= hay[1..][i..] {
      var i :| 0 <= i <= |hay[1..]| - |needle| && needle <= hay[1..][i..];
      assert hay[1..][i..] == hay[i + 1..];
    }
  }

  /** Every string contains the empty string. */
  lemma ContainsEmpty(hay: string)
    ensures Contains(hay, "")
  {
  }

  predicate StartsWith(s: string, prefix: string) {
    prefix <= s
  }

  // ---------------------------------------------------------------------------
  // trim

  function TrimStart(s: string): (r: string)
    ensures IsSuffix(r, s)
    ensures r == "" || !IsWhitespace(r[0])
    ensures forall i :: 0 <= i < |s| - |r| ==> IsWhitespace(s[i])
    decreases |s|
  {
    if |s| > 0 && IsWhitespace(s[0]) then TrimStart(s[1..]) else s
  }

  function TrimEnd(s: string): (r: string)
    ensures r <= s
    ensures r == "" || !IsWhitespace(r[|r| - 1])
    ensures forall i :: |r| <= i < |s| ==> IsWhitespace(s[i])
    decreases |s|
  {
    if |s| > 0 && IsWhitespace(s[|s| - 1]) then TrimEnd(s[..|s| - 1]) else s
  }

  /** `r` occurs in `s` at `i`, with only white space before and after it. */
  predicate PaddedAt(s: string, r: string, i: int) {
    && 0 <= i <= |s| - |r|
    && r == s[i..i + |r|]
    && (forall j :: 0 <= j < i ==> IsWhitespace(s[j]))
    && (forall j :: i + |r| <= j < |s| ==> IsWhitespace(s[j]))
  }

  /**
   * `s.trim()`: `s` with white space removed from both ends. The result is
   * the infix of `s` left after a white-space prefix and a white-space suffix.
   */
  function Trim(s: string): (r: string)
    ensures exists i :: PaddedAt(s, r, i)
    ensures r == "" || (!IsWhitespace(r[0]) && !IsWhitespace(r[|r| - 1]))
    ensures r == "" <==> forall i :: 0 <= i < |s| ==> IsWhitespace(s[i])
    ensures (s == "" || (!IsWhitespace(s[0]) && !IsWhitespace(s[|s| - 1]))) ==> r == s
  {
    var t := TrimStart(s);
    var r := TrimEnd(t);
    TrimInfix(s, t, r);
    TrimEnds(t, r);
    TrimEmpty(s, t, r);
    TrimUnchanged(s);
    r
  }

  lemma TrimInfix(s: string, t: string, r: string)
    requires IsSuffix(t, s) && forall i :: 0 <= i < |s| - |t| ==> IsWhitespace(s[i])
    requires r <= t && forall i :: |r| <= i < |t| ==> IsWhitespace(t[i])
    ensures exists i :: PaddedAt(s, r, i)
  {
    var k := |s| - |t|;
    assert s[k..] == t;
    assert s[k..k + |r|] == r;
    forall j | k + |r| <= j < |s| ensures IsWhitespace(s[j]) {
      assert s[j] == t[j - k];
    }
    assert PaddedAt(s, r, k);
  }

  lemma TrimEnds(t: string, r: string)
    requires r == TrimEnd(t) && (t == "" || !IsWhitespace(t[0]))
    ensures r == "" || (!IsWhitespace(r[0]) && !IsWhitespace(r[|r| - 1]))
  {
    if r != "" {
      assert r[0] == t[0];
    }
  }

  lemma TrimEmpty(s: string, t: string, r: string)
    requires IsSuffix(t, s) && forall i :: 0 <= i < |s| - |t| ==> IsWhitespace(s[i])
    requires t == "" || !IsWhitespace(t[0])
    requires r <= t && forall i :: |r| <= i < |t| ==> IsWhitespace(t[i])
    ensures r == "" <==> forall i :: 0 <= i < |s| ==> IsWhitespace(s[i])
  {
    var k := |s| - |t|;
    assert s[k..] == t;
    if r != "" {
      assert r[0] == t[0] == s[k];
    }
  }

  lemma TrimUnchanged(s: string)
    ensures (s == "" || (!IsWhitespace(s[0]) && !IsWhitespace(s[|s| - 1]))) ==> TrimEnd(TrimStart(s)) == s
  {
  }

  // ---------------------------------------------------------------------------
  // split(/\s+/) and join(' ')

  /**
   * `s.split(/\s+/)`: the pieces of `s` between maximal runs of white space.
   * A leading or trailing run yields an empty first or last piece, and the
   * empty string splits into one empty piece.
   */
  function Split(s: string): (ws: seq<string>)
    ensures |ws| >= 1
    decreases |s|
  {
    if |s| == 0 then [""]
    else if !IsWhitespace(s[0]) then
      var rest := Split(s[1..]);
      [[s[0]] + rest[0]] + rest[1..]
    else if |s| > 1 && IsWhitespace(s[1]) then Split(s[1..])
    else [""] + Split(s[1..])
  }

  /**
   * The pieces contain no white space, there is one piece exactly when `s`
   * has no white space (and then it is `s`), and the last piece is the word
   * `s` ends with.
   */
  lemma {:induction false} SplitPieces(s: string)
    ensures forall i :: 0 <= i < |Split(s)| ==> NoWhitespace(Split(s)[i])
    ensures |Split(s)| == 1 <==> NoWhitespace(s)
    ensures |Split(s)| == 1 ==> Split(s)[0] == s
    ensures IsLastWord(Split(s)[|Split(s)| - 1], s)
    decreases |s|
  {
    if |s| == 0 {
    } else if !IsWhitespace(s[0]) {
      SplitPieces(s[1..]);
      SplitPiecesWord(s);
    } else {
      SplitPieces(s[1..]);
      SplitPiecesSpace(s);
    }
  }

  /** The pieces property of `Split` as one predicate, for the induction steps. */
  predicate PiecesOk(s: string, ws: seq<string>) {
    && |ws| >= 1
    && (forall i :: 0 <= i < |ws| ==> NoWhitespace(ws[i]))
    && (|ws| == 1 <==> NoWhitespace(s))
    && (|ws| == 1 ==> ws[0] == s)
    && IsLastWord(ws[|ws| - 1], s)
  }

  lemma SplitPiecesSpace(s: string)
    requires |s| > 0 && IsWhitespace(s[0])
    requires PiecesOk(s[1..], Split(s[1..]))
    ensures PiecesOk(s, Split(s))
  {
    if |s| > 1 && IsWhitespace(s[1]) {
      SplitRunStep(s);
      SplitPiecesRun(s, Split(s[1..]));
    } else {
      SplitBreakStep(s);
      SplitPiecesBreak(s, Split(s[1..]));
    }
  }

  lemma SplitPiecesRun(s: string, rest: seq<string>)
    requires |s| > 1 && IsWhitespace(s[0]) && IsWhitespace(s[1])
    requires PiecesOk(s[1..], rest)
    ensures PiecesOk(s, rest)
  {
    assert !NoWhitespace(s);
    assert !NoWhitespace(s[1..]) by { assert IsWhitespace(s[1..][0]); }
    var w := rest[|rest| - 1];
    LastWordCons(s[0], s[1..], w);
    assert s == [s[0]] + s[1..];
  }

  lemma SplitPiecesBreak(s: string, rest: seq<string>)
    requires |s| > 0 && IsWhitespace(s[0])
    requires PiecesOk(s[1..], rest)
    ensures PiecesOk(s, [""] + rest)
  {
    var ws := [""] + rest;
    assert !NoWhitespace(s);
    forall i | 0 <= i < |ws| ensures NoWhitespace(ws[i]) {
      if i > 0 { assert ws[i] == rest[i - 1]; }
    }
    var w := rest[|rest| - 1];
    assert ws[|ws| - 1] == w;
    assert s == [s[0]] + s[1..];
    if |w| < |s[1..]| {
      LastWordCons(s[0], s[1..], w);
    } else {
      assert s[|s| - |w| - 1] == s[0];
    }
  }

  /** A word that does not fill `t` is still the last word after a character is put in front. */
  lemma LastWordCons(c: char, t: string, w: string)
    requires IsLastWord(w, t) && |w| < |t|
    ensures IsLastWord(w, [c] + t)
  {
    var s := [c] + t;
    assert s[|s| - |w|..] == t[|t| - |w|..];
    assert s[|s| - |w| - 1] == t[|t| - |w| - 1];
  }

  lemma SplitPiecesWord(s: string)
    requires |s| > 0 && !IsWhitespace(s[0])
    requires PiecesOk(s[1..], Split(s[1..]))
    ensures PiecesOk(s, Split(s))
  {
    SplitWordStep(s);
    assert s == [s[0]] + s[1..];
    PiecesOkCons(s[0], s[1..], Split(s[1..]));
  }

  /** A non-white-space character put in front of a text joins its first piece. */
  lemma PiecesOkCons(c: char, t: string, rest: seq<string>)
    requires !IsWhitespace(c) && PiecesOk(t, rest)
    ensures PiecesOk([c] + t, [[c] + rest[0]] + rest[1..])
  {
    var s := [c] + t;
    var ws := [[c] + rest[0]] + rest[1..];
    NoWhitespaceCons(c, t);
    NoWhitespaceCons(c, rest[0]);
    forall i | 0 <= i < |ws| ensures NoWhitespace(ws[i]) {
      if i > 0 { assert ws[i] == rest[i]; }
    }
    if |rest| > 1 {
      assert ws[|ws| - 1] == rest[|rest| - 1];
      LastWordCons(c, t, rest[|rest| - 1]);
    } else {
      assert ws == [s];
      assert s[|s| - |s|..] == s;
    }
  }

  lemma NoWhitespaceCons(c: char, t: string)
    requires !IsWhitespace(c)
    ensures NoWhitespace([c] + t) <==> NoWhitespace(t)
  {
    var s := [c] + t;
    if NoWhitespace(t) {
      forall i | 0 <= i < |s| ensures !IsWhitespace(s[i]) {
        if i > 0 { assert s[i] == t[i - 1]; }
      }
    }
    if NoWhitespace(s) {
      forall i | 0 <= i < |t| ensures !IsWhitespace(t[i]) {
        assert t[i] == s[i + 1];
      }
    }
  }

  /** The three unfolding steps of `Split`, one per kind of first character. */
  lemma SplitWordStep(s: string)
    requires |s| > 0 && !IsWhitespace(s[0])
    ensures Split(s) == [[s[0]] + Split(s[1..])[0]] + Split(s[1..])[1..]
  {
  }

  lemma SplitRunStep(s: string)
    requires |s| > 1 && IsWhitespace(s[0]) && IsWhitespace(s[1])
    ensures Split(s) == Split(s[1..])
  {
  }

  lemma SplitBreakStep(s: string)
    requires |s| > 0 && IsWhitespace(s[0]) && (|s| == 1 || !IsWhitespace(s[1]))
    ensures Split(s) == [""] + Split(s[1..])
  {
  }

  // ---------------------------------------------------------------------------
  // Words: the non-empty pieces

  /** The non-empty strings of `ws`, in order. */
  function NonEmpty(ws: seq<string>): (r: seq<string>)
    ensures forall i :: 0 <= i < |r| ==> r[i] != ""
    decreases |ws|
  {
    if |ws| == 0 then [] else (if ws[0] == "" then [] else [ws[0]]) + NonEmpty(ws[1..])
  }

  /** The words of `s`: the pieces of `split(/\s+/)` without the empty ones at either end. */
  function Words(s: string): seq<string> {
    NonEmpty(Split(s))
  }

  lemma WordsEmpty()
    ensures Words("") == []
  {
    assert Split("") == [""];
    assert [""][1..] == [];
  }

  /** The first piece is empty exactly when the text is empty or starts with white space. */
  lemma {:induction false} FirstPieceEmpty(s: string)
    ensures Split(s)[0] == "" <==> (s == "" || IsWhitespace(s[0]))
    decreases |s|
  {
    if |s| > 0 {
      if !IsWhitespace(s[0]) {
        SplitWordStep(s);
      } else if |s| > 1 && IsWhitespace(s[1]) {
        SplitRunStep(s);
        FirstPieceEmpty(s[1..]);
      } else {
        SplitBreakStep(s);
      }
    }
  }

  /** Leading white space adds no word. */
  lemma WordsSpaceStep(s: string)
    requires |s| > 0 && IsWhitespace(s[0])
    ensures Words(s) == Words(s[1..])
  {
    if |s| > 1 && IsWhitespace(s[1]) {
      SplitRunStep(s);
    } else {
      SplitBreakStep(s);
      var ws := [""] + Split(s[1..]);
      assert ws[1..] == Split(s[1..]);
    }
  }

  /**
   * A leading word character starts a word of its own before white space or
   * the end, and otherwise joins the first word of the rest.
   */
  lemma WordsWordStep(s: string)
    requires |s| > 0 && !IsWhitespace(s[0])
    ensures |s| == 1 || IsWhitespace(s[1]) ==> Words(s) == [[s[0]]] + Words(s[1..])
    ensures |s| > 1 && !IsWhitespace(s[1]) ==>
            |Words(s[1..])| > 0 && Words(s) == [[s[0]] + Words(s[1..])[0]] + Words(s[1..])[1..]
  {
    var rest := Split(s[1..]);
    SplitWordStep(s);
    FirstPieceEmpty(s[1..]);
    var ws := [[s[0]] + rest[0]] + rest[1..];
    assert ws[1..] == rest[1..];
    assert NonEmpty(ws) == [ws[0]] + NonEmpty(rest[1..]);
    if rest[0] == "" {
      assert NonEmpty(rest) == NonEmpty(rest[1..]);
      assert ws[0] == [s[0]];
    } else {
      assert NonEmpty(rest) == [rest[0]] + NonEmpty(rest[1..]);
    }
  }

  /** A word character followed by white space or the end is a word of its own. */
  lemma WordsWordAlone(s: string)
    requires |s| > 0 && !IsWhitespace(s[0]) && (|s| == 1 || IsWhitespace(s[1]))
    ensures Words(s) == [[s[0]]] + Words(s[1..])
  {
    WordsWordStep(s);
  }

  /**
   * Splitting text in two where the second part is empty or starts with
   * white space splits the words in two as well.
   */
  lemma {:induction false} WordsConcat(x: string, y: string)
    requires y == "" || IsWhitespace(y[0])
    ensures Words(x + y) == Words(x) + Words(y)
    decreases |x|
  {
    if |x| == 0 {
      assert x + y == y;
      WordsEmpty();
    } else {
      WordsConcat(x[1..], y);
      if IsWhitespace(x[0]) {
        WordsConcatSpace(x, y);
      } else if |x| > 1 && !IsWhitespace(x[1]) {
        WordsConcatJoin(x, y);
      } else {
        WordsConcatAlone(x, y);
      }
    }
  }

  /** Putting a character onto the first word commutes with appending more words. */
  lemma ConsOntoHead(c: char, a: seq<string>, t: seq<string>)
    requires |a| > 0
    ensures [[c] + (a + t)[0]] + (a + t)[1..] == ([[c] + a[0]] + a[1..]) + t
  {
    assert (a + t)[1..] == a[1..] + t;
  }

  /** Putting a one-letter word in front commutes with appending more words. */
  lemma ConsWord(c: char, a: seq<string>, t: seq<string>)
    ensures [[c]] + (a + t) == ([[c]] + a) + t
  {
  }

  lemma WordsConcatSpace(x: string, y: string)
    requires |x| > 0 && IsWhitespace(x[0])
    requires Words(x[1..] + y) == Words(x[1..]) + Words(y)
    ensures Words(x + y) == Words(x) + Words(y)
  {
    var s := x + y;
    assert s[0] == x[0] && s[1..] == x[1..] + y;
    WordsSpaceStep(s);
    WordsSpaceStep(x);
  }

  lemma WordsConcatJoin(x: string, y: string)
    requires |x| > 1 && !IsWhitespace(x[0]) && !IsWhitespace(x[1])
    requires Words(x[1..] + y) == Words(x[1..]) + Words(y)
    ensures Words(x + y) == Words(x) + Words(y)
  {
    var s := x + y;
    assert s[0] == x[0] && s[1] == x[1] && s[1..] == x[1..] + y;
    WordsWordStep(s);
    WordsWordStep(x);
    ConsOntoHead(x[0], Words(x[1..]), Words(y));
  }

  lemma WordsConcatAlone(x: string, y: string)
    requires |x| > 0 && !IsWhitespace(x[0]) && (|x| == 1 || IsWhitespace(x[1]))
    requires y == "" || IsWhitespace(y[0])
    requires Words(x[1..] + y) == Words(x[1..]) + Words(y)
    ensures Words(x + y) == Words(x) + Words(y)
  {
    var s := x + y;
    assert s[0] == x[0] && s[1..] == x[1..] + y;
    assert |s| == 1 || IsWhitespace(s[1]) by {
      if |x| > 1 {
        assert s[1] == x[1];
      } else if |y| > 0 {
        assert s[1] == y[0];
      }
    }
    var c := x[0];
    var rest := s[1..];
    assert rest == x[1..] + y;
    WordsWordAlone(s);
    WordsWordAlone(x);
    ConsWord(c, Words(x[1..]), Words(y));
  }

  /** `ws.join(' ')`. */
  function Join(ws: seq<string>): string
    decreases |ws|
  {
    if |ws| == 0 then ""
    else if |ws| == 1 then ws[0]
    else ws[0] + " " + Join(ws[1..])
  }

  /** Joining one more piece puts a single space before it. */
  lemma {:induction false} JoinSnoc(ws: seq<string>, t: string)
    requires |ws| >= 1
    ensures Join(ws + [t]) == Join(ws) + " " + t
    decreases |ws|
  {
    if |ws| == 1 {
      assert (ws + [t])[1..] == [t];
    } else {
      JoinSnoc(ws[1..], t);
      assert (ws + [t])[1..] == ws[1..] + [t];
    }
  }

  /**
   * Replacing the last piece before joining replaces the tail of the joined
   * string: the joined string minus the old last piece, then the new one.
   */
  lemma JoinReplaceLast(ws: seq<string>, t: string)
    requires |ws| >= 1
    ensures |ws[|ws| - 1]| <= |Join(ws)|
    ensures Join(ws[..|ws| - 1] + [t])
            == Join(ws)[..|Join(ws)| - |ws[|ws| - 1]|] + t
  {
    var n := |ws|;
    if n == 1 {
      assert ws[..0] + [t] == [t];
    } else {
      var init := ws[..n - 1];
      assert init + [ws[n - 1]] == ws;
      JoinSnoc(init, ws[n - 1]);
      JoinSnoc(init, t);
    }
  }

  /**
   * `s` with every maximal run of white space replaced by one space: the
   * character-level reading of splitting on `/\s+/` and joining with `' '`.
   */
  function Collapse(s: string): (r: string)
    ensures |r| <= |s|
    decreases |s|
  {
    if |s| == 0 then ""
    else if !IsWhitespace(s[0]) then [s[0]] + Collapse(s[1..])
    else if |s| > 1 && IsWhitespace(s[1]) then Collapse(s[1..])
    else " " + Collapse(s[1..])
  }

  /** Splitting on white-space runs and joining with one space collapses the runs. */
  lemma {:induction false} JoinSplit(s: string)
    ensures Join(Split(s)) == Collapse(s)
    decreases |s|
  {
    if |s| > 0 {
      JoinSplit(s[1..]);
      if !IsWhitespace(s[0]) {
        JoinSplitWord(s);
      } else if !(|s| > 1 && IsWhitespace(s[1])) {
        JoinSplitSpace(s);
      }
    }
  }

  lemma JoinSplitWord(s: string)
    requires |s| > 0 && !IsWhitespace(s[0])
    requires Join(Split(s[1..])) == Collapse(s[1..])
    ensures Join(Split(s)) == Collapse(s)
  {
    var rest := Split(s[1..]);
    var head := [s[0]] + rest[0];
    var ws := [head] + rest[1..];
    assert Split(s) == ws;
    var joined := Join(ws);
    assert Collapse(s) == [s[0]] + Join(rest);
    if |rest| == 1 {
      assert joined == head;
    } else {
      var tail := Join(rest[1..]);
      assert ws[1..] == rest[1..];
      assert joined == head + " " + tail;
      assert Join(rest) == rest[0] + " " + tail;
      ConsAssoc(s[0], rest[0], tail);
    }
    assert joined == Collapse(s);
  }

  lemma ConsAssoc(c: char, a: string, b: string)
    ensures [c] + a + " " + b == [c] + (a + " " + b)
  {
  }

  lemma JoinSplitSpace(s: string)
    requires |s| > 0 && IsWhitespace(s[0]) && !(|s| > 1 && IsWhitespace(s[1]))
    requires Join(Split(s[1..])) == Collapse(s[1..])
    ensures Join(Split(s)) == Collapse(s)
  {
    var ws := [""] + Split(s[1..]);
    assert Split(s) == ws;
    assert ws[1..] == Split(s[1..]);
  }

  /** Text whose only white space is single, isolated `' '` characters. */
  predicate SingleSpaced(s: string) {
    forall i :: 0 <= i < |s| && IsWhitespace(s[i]) ==>
      s[i] == ' ' && (i + 1 < |s| ==> !IsWhitespace(s[i + 1]))
  }

  /** Collapsing leaves single-spaced text unchanged. */
  lemma {:induction false} CollapseSingleSpaced(s: string)
    requires SingleSpaced(s)
    ensures Collapse(s) == s
    decreases |s|
  {
    if |s| > 0 {
      assert SingleSpaced(s[1..]) by {
        forall i | 0 <= i < |s[1..]| && IsWhitespace(s[1..][i])
          ensures s[1..][i] == ' ' && (i + 1 < |s[1..]| ==> !IsWhitespace(s[1..][i + 1]))
        {
          assert s[1..][i] == s[i + 1];
          if i + 1 < |s[1..]| { assert s[1..][i + 1] == s[i + 2]; }
        }
      }
      CollapseSingleSpaced(s[1..]);
      assert s == [s[0]] + s[1..];
    }
  }

  /** Collapsed text is single-spaced. */
  lemma {:induction false} CollapseIsSingleSpaced(s: string)
    ensures SingleSpaced(Collapse(s))
    ensures |Collapse(s)| > 0 && IsWhitespace(Collapse(s)[0]) ==> |s| > 0 && IsWhitespace(s[0])
    decreases |s|
  {
    if |s| > 0 {
      CollapseIsSingleSpaced(s[1..]);
      var c := Collapse(s[1..]);
      if !IsWhitespace(s[0]) {
        assert Collapse(s) == [s[0]] + c;
      } else if |s| > 1 && IsWhitespace(s[1]) {
      } else {
        var r := " " + c;
        assert Collapse(s) == r;
        assert |c| > 0 ==> !IsWhitespace(c[0]);
        forall i | 0 <= i < |r| && IsWhitespace(r[i])
          ensures r[i] == ' ' && (i + 1 < |r| ==> !IsWhitespace(r[i + 1]))
        {
          if i > 0 { assert r[i] == c[i - 1]; }
          if i + 1 < |r| { assert r[i + 1] == c[i]; }
        }
      }
    }
  }
}

=== FILE: studies.dfy ===
/**
 * The studies table (src/components/Studies.jsx): one server-side page of
 * studies for the current query, the page controls, and a client-side sort
 * of the received page by a column.
 */
module Studies {
  import opened JsValues
  import opened Sequences
  import opened Pager

  const DefaultPageSize: nat := 20

  /** Prefix of every message the table shows for a failed request. */
  const ErrorPrefix: string := "Unable to fetch studies: "

  /** One result row; a text field is "" when absent. */
  datatype Study = Study(studyId: string, year: Field, journal: string, title: string, authors: string)

  datatype Column = StudyId | Year | Journal | Title | Authors

  // ---------------------------------------------------------------------------
  // The `sorted` memo

  /**
   * The comparator's key for a column: `Number(year || 0)` for the year, and
   * the text's rank in the caller's collation order for the other columns.
   */
  function ColumnRank(collate: string -> real, column: Column): Study -> real {
    match column
    case Year => (s: Study) => NumberOrZero(s.year)
    case StudyId => (s: Study) => collate(s.studyId)
    case Journal => (s: Study) => collate(s.journal)
    case Title => (s: Study) => collate(s.title)
    case Authors => (s: Study) => collate(s.authors)
  }

  /** The received page reordered by the sort column in the sort direction. */
  function SortedRows(rows: seq<Study>, sort: SortState<Column>, collate: string -> real): (r: seq<Study>)
    ensures multiset(r) == multiset(rows) && |r| == |rows|
    ensures Ordered(r, ColumnRank(collate, sort.key), sort.dir)
  {
    SortByKey(rows, ColumnRank(collate, sort.key), sort.dir)
  }

  /**
   * Sorted by year, the rows are a permutation of the page in numeric year
   * order, a missing year counting as 0; the collation plays no part.
   */
  lemma YearSortIsNumeric(rows: seq<Study>, dir: Dir, collate: string -> real)
    ensures var r := SortedRows(rows, SortState(Year, dir), collate);
            && multiset(r) == multiset(rows)
            && forall i, j :: 0 <= i < j < |r| ==> InOrder(NumberOrZero(r[i].year), NumberOrZero(r[j].year), dir)
    ensures forall c: string -> real :: SortedRows(rows, SortState(Year, dir), c) == SortedRows(rows, SortState(Year, dir), collate)
  {
    var r := SortedRows(rows, SortState(Year, dir), collate);
    forall i, j | 0 <= i < j < |r|
      ensures InOrder(NumberOrZero(r[i].year), NumberOrZero(r[j].year), dir)
    {
      assert InOrder(ColumnRank(collate, Year)(r[i]), ColumnRank(collate, Year)(r[j]), dir);
    }
    forall c: string -> real
      ensures SortedRows(rows, SortState(Year, dir), c) == SortedRows(rows, SortState(Year, dir), collate)
    {
      assert ColumnRank(c, Year) == ColumnRank(collate, Year);
    }
  }

  // ---------------------------------------------------------------------------
  // Table state and the fetch effect

  /** The query string and the `limit` and `offset` parameters of a page request. */
  datatype Request = Request(query: string, window: Window)

  datatype Table = Table(
    query: string,
    page: int,
    pageSize: nat,
    sort: SortState<Column>,
    rows: seq<Study>,
    total: real,
    err: string,
    requested: Option<Request>)   // the last request issued

  function RequestFor(t: Table): Request {
    Request(t.query, PageWindow(t.page, t.pageSize))
  }

  /** The fetch effect's dependency list `[query, page, pageSize]`. */
  function Deps(t: Table): (string, int, nat) {
    (t.query, t.page, t.pageSize)
  }

  /**
   * The fetch effect after a state change: it issues the request for the new
   * state, clearing the error, exactly when a dependency changed and the
   * query is not empty.
   */
  function Refetch(before: Table, after: Table): (r: (Table, Option<Request>))
    ensures r.1.Some? <==> after.query != "" && Deps(before) != Deps(after)
    ensures r.1.Some? ==> r.1 == Some(RequestFor(after)) && r.0 == after.(err := "", requested := r.1)
    ensures r.1.None? ==> r.0 == after
  {
    if after.query != "" && Deps(before) != Deps(after) then
      var req := RequestFor(after);
      (after.(err := "", requested := Some(req)), Some(req))
    else
      (after, None)
  }

  /** The table on mount, with the request the effect issues for a non-empty query. */
  function Mount(query: string): (r: (Table, Option<Request>))
    ensures r.0.page == 1 && r.0.pageSize == DefaultPageSize && r.0.sort == SortState(Year, Desc)
    ensures r.1.Some? <==> query != ""
    ensures r.1.Some? ==> r.1 == Some(Request(query, Window(DefaultPageSize, 0)))
  {
    var t := Table(query, 1, DefaultPageSize, SortState(Year, Desc), [], 0.0, "", None);
    if query != "" then (t.(requested := Some(RequestFor(t))), Some(RequestFor(t))) else (t, None)
  }

  datatype Event =
    | QueryChanged(q: string)
    | PageSizeChosen(choice: Option<nat>)   // the option's value through `Number`; None for NaN
    | Navigated(nav: Nav)
    | HeaderClicked(column: Column)
    | Settled(response: Response<Study>)    // the answer to the last request

  /** The page count the navigation buttons see. */
  function PageCount(t: Table): int
    requires t.pageSize > 0
  {
    TotalPages(t.total, t.pageSize)
  }

  /** The table after an event, with the request it issues, if any. */
  function Step(t: Table, e: Event): (r: (Table, Option<Request>))
    requires t.pageSize > 0
    ensures r.0.pageSize > 0
    ensures r.1.Some? ==> r.1 == Some(RequestFor(r.0)) && r.0.query != ""
  {
    match e
    case QueryChanged(q) =>
      Refetch(t, if q == t.query then t else t.(query := q, page := 1))
    case PageSizeChosen(choice) =>
      Refetch(t, t.(pageSize := Chosen(choice, DefaultPageSize), page := 1))
    case Navigated(nav) =>
      Refetch(t, t.(page := Navigate(t.page, PageCount(t), nav)))
    case HeaderClicked(column) =>
      Refetch(t, t.(sort := ChangeSort(t.sort, column)))
    case Settled(response) =>
      match Settle(response)
      case Rows(rows, total) => (t.(rows := rows, total := total), None)
      case Failure(message) => (t.(rows := [], total := 0.0, err := ErrorPrefix + message), None)
  }

  /**
   * The reachable tables: a positive page size, a page of at least 1, and,
   * while the query is not empty, a last request that matches the state.
   */
  predicate Valid(t: Table) {
    && t.pageSize > 0
    && t.page >= 1
    && (t.query != "" ==> t.requested == Some(RequestFor(t)))
  }

  lemma MountValid(query: string)
    ensures Valid(Mount(query).0)
  {
  }

  /** Every event keeps the table valid: the rows on show always answer the current parameters. */
  lemma StepKeepsValid(t: Table, e: Event)
    requires Valid(t)
    ensures Valid(Step(t, e).0)
  {
    if e.Navigated? {
      assert PageCount(t) >= 1;
    }
  }

  /**
   * A new query returns to page 1 and, when it is not empty, asks for the
   * first window of the current page size; an empty query asks for nothing.
   */
  lemma QueryChangeResetsPage(t: Table, q: string)
    requires t.pageSize > 0 && q != t.query
    ensures var (t', req) := Step(t, QueryChanged(q));
            && t'.page == 1 && t'.query == q && t'.pageSize == t.pageSize
            && (q != "" ==> req == Some(Request(q, Window(t.pageSize, 0))))
            && (q == "" ==> req.None? && t'.rows == t.rows)
  {
  }

  /** A page-size choice returns to page 1 with the chosen size, or 20 when it converts to 0 or NaN. */
  lemma PageSizeResetsPage(t: Table, choice: Option<nat>)
    requires t.pageSize > 0
    ensures var t' := Step(t, PageSizeChosen(choice)).0;
            && t'.page == 1
            && (choice == None || choice == Some(0) ==> t'.pageSize == DefaultPageSize)
            && (choice.Some? && choice.value > 0 ==> t'.pageSize == choice.value)
  {
  }

  /** A header click changes only the sort: no request, the same rows, reordered on show. */
  lemma HeaderClickOnlyResorts(t: Table, column: Column)
    requires t.pageSize > 0
    ensures var (t', req) := Step(t, HeaderClicked(column));
            && req.None?
            && t' == t.(sort := ChangeSort(t.sort, column))
  {
  }

  /** From a page below the last, `Next` asks for the adjacent window. */
  lemma NextFetchesFollowingWindow(t: Table)
    requires Valid(t) && t.query != "" && t.page < PageCount(t)
    ensures var (t', req) := Step(t, Navigated(Next));
            && t'.page == t.page + 1
            && req == Some(Request(t.query, Window(t.pageSize, t.page * t.pageSize)))
  {
  }

  /** A failed request leaves no rows, a zero total, one page, and a prefixed message. */
  lemma FailureShowsOnePage(t: Table, response: Response<Study>)
    requires t.pageSize > 0 && Settle(response).Failure?
    ensures var t' := Step(t, Settled(response)).0;
            && t'.rows == [] && t'.total == 0.0 && PageCount(t') == 1
            && t'.err == ErrorPrefix + Settle(response).message
  {
  }
}

=== FILE: terms.dfy ===
/**
 * The term list panel (src/components/Terms.jsx): the searchable vocabulary,
 * the 500-entry display cap, the tokens a click hands to the query, and the
 * related-terms list with its sort and limit controls.
 */
module Terms {
  import opened JsValues
  import opened Strings
  import opened Sequences
  import opened Search
  import opened QueryText
  import Pager

  /** At most this many filtered terms are listed. */
  const DisplayCap: nat := 500

  /** The related-terms limit on mount and after a selection that converts to 0 or NaN. */
  const DefaultRelatedLimit: nat := 10

  // ---------------------------------------------------------------------------
  // The term list

  /**
   * The `filtered` memo: the whole list for a blank search, else the terms
   * containing the trimmed, lower-cased search. The blank-search shortcut
   * agrees with filtering by the empty string.
   */
  function Filtered(terms: seq<string>, search: string): (r: seq<string>)
    ensures r == Matching(terms, Lower(Trim(search)))
  {
    var s := Lower(Trim(search));
    if s == "" then
      MatchingEmptyNeedle(terms);
      terms
    else
      Matching(terms, s)
  }

  /** A blank search (white space only) lists every term, in order and with repeats. */
  lemma BlankSearchListsAll(terms: seq<string>, search: string)
    requires forall i :: 0 <= i < |search| ==> IsWhitespace(search[i])
    ensures Filtered(terms, search) == terms
  {
    assert Trim(search) == "";
    assert Lower("") == "";
    MatchingEmptyNeedle(terms);
  }

  /**
   * The listed terms: the first `min(|filtered|, 500)` filtered terms, an
   * order-preserving subsequence of the vocabulary, each containing the search.
   */
  function Displayed(terms: seq<string>, search: string): (r: seq<string>)
    ensures |r| == if |Filtered(terms, search)| < DisplayCap then |Filtered(terms, search)| else DisplayCap
    ensures r <= Filtered(terms, search)
    ensures IsSubsequence(r, terms)
    ensures forall i :: 0 <= i < |r| ==> Matches(r[i], Lower(Trim(search)))
  {
    var all := Filtered(terms, search);
    SubsequencePrefix(all, terms, if DisplayCap < |all| then DisplayCap else |all|);
    Take(all, DisplayCap)
  }

  // ---------------------------------------------------------------------------
  // Tokens handed to the query

  datatype Op = And | Or | Not

  function OpName(op: Op): (r: string)
    ensures Upper(r) in Operators && NoWhitespace(r) && r != ""
    ensures r == Operators[if op == And then 0 else if op == Or then 1 else 2]
  {
    var r := match op case And => "AND" case Or => "OR" case Not => "NOT";
    assert Upper(r) == r by {
      forall i | 0 <= i < |r| ensures Upper(r)[i] == r[i] {
        assert 'A' <= r[i] <= 'Z';
      }
    }
    assert r == Operators[if op == And then 0 else if op == Or then 1 else 2];
    r
  }

  /** The three buttons emit three different operator words. */
  lemma OpNameInjective(a: Op, b: Op)
    ensures OpName(a) == OpName(b) ==> a == b
  {
    assert Operators[0] != Operators[1] && Operators[1] != Operators[2] && Operators[0] != Operators[2];
  }

  /** `handleOperatorClick(term, operator)` emits `` `${operator} ${term}` ``. */
  function OperatorToken(op: Op, term: string): (r: string)
    ensures |r| == |OpName(op)| + 1 + |term|
    ensures r[..|OpName(op)|] == OpName(op) && r[|OpName(op)|] == ' ' && r[|OpName(op)| + 1..] == term
  {
    OpName(op) + " " + term
  }

  /**
   * An operator token for a one-word term is two words, the operator first,
   * so the query reads it as an operator followed by the term.
   */
  lemma OperatorTokenWords(op: Op, term: string)
    requires term != "" && NoWhitespace(term)
    ensures Split(OperatorToken(op, term)) == [OpName(op), term]
    ensures Classify(Split(OperatorToken(op, term))[0]) == Operator
  {
    var name := OpName(op);
    SplitPieces(name);
    SplitPieces(term);
    assert !IsWhitespace(term[0]);
    assert !EndsInWhitespace(name);
    AppendAddsWords(name, term);
  }

  // ---------------------------------------------------------------------------
  // Related terms

  /** One entry of `related`; `term` is "" when absent. */
  datatype Related = Related(term: string, coCount: Field, jaccard: Field)

  datatype RelatedKey = CoCount | Jaccard | TermName

  /**
   * The comparator's key: `Number(x) || 0` of the count or the Jaccard
   * index, or the term's rank in the caller's collation order.
   */
  function RelatedRank(collate: string -> real, key: RelatedKey): Related -> real {
    match key
    case CoCount => (x: Related) => NumberOrZero(x.coCount)
    case Jaccard => (x: Related) => NumberOrZero(x.jaccard)
    case TermName => (x: Related) => collate(x.term)
  }

  /** A missing count or Jaccard index sorts as zero. */
  lemma MissingCountsAsZero(collate: string -> real, term: string, f: Field)
    requires f.IsNullish()
    ensures RelatedRank(collate, CoCount)(Related(term, f, f)) == 0.0
    ensures RelatedRank(collate, Jaccard)(Related(term, f, f)) == 0.0
  {
  }

  /**
   * The shown related terms: the fetched list sorted by the chosen key in
   * the chosen direction, cut to the limit. The result holds only fetched
   * entries, is in order, has `min(|related|, limit)` entries, and every
   * shown entry ranks at or ahead of every entry cut off.
   */
  function RelatedShown(related: seq<Related>, key: RelatedKey, dir: Dir, limit: nat,
                        collate: string -> real): (r: seq<Related>)
    ensures |r| == if limit < |related| then limit else |related|
    ensures multiset(r) <= multiset(related)
    ensures Ordered(r, RelatedRank(collate, key), dir)
    ensures limit >= |related| ==> multiset(r) == multiset(related)
    ensures forall x, y :: x in multiset(r) && y in multiset(related) - multiset(r) ==>
              InOrder(RelatedRank(collate, key)(x), RelatedRank(collate, key)(y), dir)
  {
    var sorted := SortByKey(related, RelatedRank(collate, key), dir);
    var r := Take(sorted, limit);
    assert sorted == r + sorted[|r|..];
    assert multiset(sorted) == multiset(r) + multiset(sorted[|r|..]);
    assert multiset(related) - multiset(r) == multiset(sorted[|r|..]);
    assert r == sorted[..|r|];
    OrderedPrefix(sorted, |r|, RelatedRank(collate, key), dir);
    OrderedSplit(sorted, |r|, RelatedRank(collate, key), dir);
    r
  }

  lemma OrderedPrefix<T>(xs: seq<T>, n: nat, key: T -> real, dir: Dir)
    requires n <= |xs| && Ordered(xs, key, dir)
    ensures Ordered(xs[..n], key, dir)
  {
    forall i, j | 0 <= i < j < n ensures InOrder(key(xs[..n][i]), key(xs[..n][j]), dir) {
      assert xs[..n][i] == xs[i] && xs[..n][j] == xs[j];
    }
  }

  /** The name a related row shows and hands on: its term, or `Term <position>` without one. */
  function DisplayName(x: Related, index: nat): (r: string)
    ensures r != ""
    ensures x.term != "" ==> r == x.term
    ensures x.term == "" ==> r == "Term " + Pager.NatToString(index + 1)
  {
    if x.term != "" then x.term else "Term " + Pager.NatToString(index + 1)
  }

  /** Rows without a term at different positions get different names. */
  lemma PositionalNamesDistinct(x: Related, i: nat, y: Related, j: nat)
    requires x.term == "" && y.term == "" && i != j
    ensures DisplayName(x, i) != DisplayName(y, j)
  {
    var a := Pager.NatToString(i + 1);
    var b := Pager.NatToString(j + 1);
    Pager.NatToStringInjective(i + 1, j + 1);
    PrefixCancels("Term ", a, b);
  }

  lemma PrefixCancels(p: string, a: string, b: string)
    ensures p + a == p + b ==> a == b
  {
    if p + a == p + b {
      assert a == (p + a)[|p|..];
      assert b == (p + b)[|p|..];
    }
  }

  // ---------------------------------------------------------------------------
  // Panel state

  /** A list request as it settles: thrown before an answer, or answered. */
  datatype Fetched<T> =
    | Unreachable(reason: string)
    | Answered(ok: bool, status: nat, items: Option<seq<T>>)  // None when the field is not an array

  /** The message of the error a failed request throws. */
  function FailureReason<T>(f: Fetched<T>): string {
    match f
    case Unreachable(reason) => reason
    case Answered(_, status, _) => "HTTP " + Pager.NatToString(status)
  }

  predicate Succeeded<T>(f: Fetched<T>) {
    f.Answered? && f.ok
  }

  datatype Panel = Panel(
    terms: seq<string>,
    search: string,
    listErr: string,
    selected: Option<string>,
    related: seq<Related>,
    relatedErr: string,
    limit: nat,
    sortKey: RelatedKey,
    dir: Dir)

  function MountPanel(): Panel {
    Panel([], "", "", None, [], "", DefaultRelatedLimit, CoCount, Desc)
  }

  datatype Event =
    | TermsLoaded(result: Fetched<string>)
    | SearchTyped(text: string)
    | SearchCleared
    | TermClicked(term: string)
    | RelatedLoaded(reply: Fetched<Related>)
    | OperatorClicked(op: Op, row: Related, index: nat)
    | SortKeyChosen(key: RelatedKey)
    | DirectionToggled
    | LimitChosen(choice: Option<nat>)   // the option's value through `Number`; None for NaN

  /** The panel after an event, with the token it hands to `onPickTerm`, if any. */
  function Step(p: Panel, e: Event): (r: (Panel, Option<string>))
    ensures r.1.Some? <==> e.TermClicked? || e.OperatorClicked?
    ensures e.TermClicked? ==> r.1 == Some(e.term) && r.0.selected == Some(e.term)
    ensures e.OperatorClicked? ==> r.1 == Some(OperatorToken(e.op, DisplayName(e.row, e.index))) && r.0 == p
    ensures p.limit > 0 ==> r.0.limit > 0
  {
    match e
    case TermsLoaded(result) =>
      if Succeeded(result) then (p.(terms := result.items.GetOr([]), listErr := ""), None)
      else (p.(listErr := "Failed to fetch terms: " + FailureReason(result)), None)
    case SearchTyped(text) => (p.(search := text), None)
    case SearchCleared => (p.(search := ""), None)
    case TermClicked(term) => (p.(selected := Some(term), relatedErr := ""), Some(term))
    case RelatedLoaded(reply) =>
      if Succeeded(reply) then (p.(related := reply.items.GetOr([])), None)
      else (p.(related := [], relatedErr := "Failed to fetch related terms: " + FailureReason(reply)), None)
    case OperatorClicked(op, row, index) => (p, Some(OperatorToken(op, DisplayName(row, index))))
    case SortKeyChosen(key) => (p.(sortKey := key), None)
    case DirectionToggled => (p.(dir := Flip(p.dir)), None)
    case LimitChosen(choice) => (p.(limit := Pager.Chosen(choice, DefaultRelatedLimit)), None)
  }

  /**
   * A term click only selects the term and clears the related-terms error;
   * the list, the search and the controls stay as they were.
   */
  lemma TermClickSelects(p: Panel, t: string)
    ensures Step(p, TermClicked(t)).0 == p.(selected := Some(t), relatedErr := "")
  {
  }

  /** A failed related-terms request empties the list and reports the prefixed reason. */
  lemma RelatedFailureEmpties(p: Panel, reply: Fetched<Related>)
    requires !Succeeded(reply)
    ensures var q := Step(p, RelatedLoaded(reply)).0;
            q.related == [] && q.relatedErr == "Failed to fetch related terms: " + FailureReason(reply)
            && q.selected == p.selected
  {
  }

  /** The direction button is an involution; a limit selection is 10 or the chosen positive value. */
  lemma ControlsBehave(p: Panel, choice: Option<nat>)
    ensures Step(Step(p, DirectionToggled).0, DirectionToggled).0 == p
    ensures Step(p, DirectionToggled).0.dir != p.dir
    ensures var l := Step(p, LimitChosen(choice)).0.limit;
            l > 0 && (l == DefaultRelatedLimit || choice == Some(l))
    ensures choice == None || choice == Some(0) ==> Step(p, LimitChosen(choice)).0.limit == DefaultRelatedLimit
  {
  }
}
